=== FILE: README.md ===
# A Dafny model of the personal site's art, page and image layer

This project models the stateful core of a small personal web site:

- **The Met art sampler** (`MetArtAccessor`, art_accessors.py). It has:
  - a first-in-first-out cache of object records;
  - a time-to-live cache of search results, truncated to their leading tenth;
  - the `met_objects_raw` table of (search term, object id) rows, with the projection that turns an object record into an `ArtObject`;
  - the sampling loop, which deletes an object's rows and samples again while the chosen object has no image, up to a retry bound.
- **The older art service** (`ArtApi` and `Curator`, classes.py). It keeps, per art type, an expiring dictionary of the search result and the fetched records. It answers `random_object` from the last object for ten seconds.
- **The page index** (`Content` and `ContentOrganizer`, classes.py). It covers the day suffix; a page's preview, title, encoded title and timestamp; the index sorted newest first; the blog posts; and the most recent post.
- **The browser helpers** (static/base_scripts.js):
  - `getTextNodesIn`, the walk collecting text nodes;
  - `smarten`, which turns straight quotes into curly ones and `--` into an em dash;
  - the `/random_art` URL built by `FineArt.request_random_art`.
- **The sunset GIF feed** (`SunsetGIFs`, images_cloudinary.py). It covers the refresh rule of `raw_search_data`, the most recent image, and the `re.sub` rewrite of its URL.

## How the source is modelled

- Every operation is a pure function from the old state to the new state and the result.
- The clock is a `real` parameter `now`.
- The random draw is a function `pick` from the attempt (or the population size) to a natural number. The index drawn is that number modulo the population size.
- The remote Met and Cloudinary services and the URL quoting functions (`quote`, `quote_plus`) are parameters. They are grouped in an `Upstream` record, or passed as the reply they would give.
- The library caches are modelled by their documented behaviour, in their own modules:
  - `cachetools.FIFOCache` as `FifoCache`;
  - `cachetools.TTLCache` as `TtlCache`;
  - `expiringdict.ExpiringDict` as `ExpiringDict`.
  
  These three are built on an insertion-ordered map, `OrderedMap`.
- The database table is a sequence of rows. `None` stands for a table that does not exist yet. Querying a missing table is the `MissingTable` error.
- Python exceptions become the `Err` side of a `Result`.

## Behaviour worth knowing


- **Sampling.** An object without an image has its rows deleted from the table only. Its record stays in the object cache, and its id stays in the cached search result. So a later call that finds the search result still cached inserts the object's rows again (`MetArtAccessor.ClearedObjectReturnsOnCacheHit`).
- **The art service's repeat window.** The window is a fixed ten seconds, and the remembered object is served without checking for an image.
- **`new_art_min_sec`.** It is stored as `art_change_period` and never read (`ArtApi.ArtChangePeriodUnused`).

## Model

| member | source | states |
|---|---|---|
| `FifoCache.Empty` | art_accessors.py:57-58 | a new object cache is empty and has the given capacity |
| `FifoCache.Put` | art_accessors.py:77-81 | a stored record reads back; below capacity or on an existing key nothing is evicted; at capacity a new key evicts exactly the oldest inserted key |
| `FifoCache.PutAllOrder` | art_accessors.py:77-81 | the key order after a run of stores is the step-by-step first-in-first-out order |
| `FifoCache.OrderAfterDistinctPuts` | art_accessors.py:57-58 | storing distinct keys into an empty cache keeps exactly the last `capacity` of them, in insertion order |
| `FifoCache.PutAllDistinctKeepsNewest` | art_accessors.py:57-58 | the same, stated for the cache itself |
| `FifoCache.OverflowEvictsFirst` | art_accessors.py:57-58 | storing capacity + 1 distinct keys evicts the first key and keeps every later one |
| `TtlCache.Empty` | art_accessors.py:59-61 | a new search cache is empty, with the given capacity and time to live |
| `TtlCache.Lookup` | art_accessors.py:112 | a key reads as present exactly while its entry has not expired, and then gives the stored value |
| `TtlCache.Get` | art_accessors.py:120 | a read keeps the contents, gives what Lookup gives, and on a hit makes the key the most recently used |
| `TtlCache.Expire` | art_accessors.py:59-61 | expiry keeps exactly the live entries, unchanged |
| `TtlCache.Victim` | art_accessors.py:59-61 | a write evicts nothing exactly when the key is live or the live keys leave room; otherwise it evicts the least recently used live key, which is never the key being stored |
| `TtlCache.Put` | art_accessors.py:119 | a stored value carries the expiry time now + ttl and is the most recent key; every other surviving entry is unchanged; every live key except the victim survives |
| `TtlCache.ReadsBackUntilTtl` | art_accessors.py:119-120 | a stored search result reads back strictly before its time to live runs out, and not from then on |
| `ExpiringDict.Empty` | classes.py:124 | a new dictionary is empty, with the given length and age bounds |
| `ExpiringDict.Contains` | classes.py:131 | membership holds exactly for a live key; a stale key is dropped on the test |
| `ExpiringDict.Get` | classes.py:151 | a read gives the value exactly for a live key, and drops a stale one |
| `ExpiringDict.Put` | classes.py:144-147 | a stored value is stamped now and is live when the age bound is positive; other entries keep their values; below the length bound nothing is lost and a new key goes last; at the bound a live key moves to the newest position, and otherwise the oldest entry other than the key is dropped and the key goes last |
| `OrderedMap.Empty` | art_accessors.py:57-61 | the empty insertion-ordered map |
| `OrderedMap.DropOldest` | art_accessors.py:57-58 | dropping the oldest key removes exactly the first key of the order |
| `OrderedMap.Touch` | art_accessors.py:59-61 | a touched key moves to the end of the order with its new value |
| `OrderedMap.Assign` | classes.py:144-147 | assigning keeps an existing key's place and appends a new key |
| `OrderedMap.Delete` | classes.py:131 | deleting removes the key from the map and the order |
| `OrderedMap.Restrict` | art_accessors.py:59-61 | restricting keeps exactly the keys that pass, in their old order |
| `Decimal.DigitsRoundTrip` | art_accessors.py:137 | reading the decimal digits of a natural number gives the number back |
| `Decimal.DecimalRoundTrip` | art_accessors.py:137 | reading back the `id` string of any object id, negative or not, gives the id |
| `Decimal.NegativeRoundTrip` | art_accessors.py:137 | the same for a negative id, with its leading `-` |
| `MetObject.Coalesce` | art_accessors.py:147-148 | `coalesce` gives its first present argument, and nothing only when both are missing |
| `MetObject.Apply` | art_accessors.py:139-143 | SQL `quote` of a missing field is missing; of a present field it is the quoted text |
| `MetObject.Project` | art_accessors.py:134-153 | the complete view's row for an object: the decimal id; attribution, culture, title and date taken from the record; each quoted column null with its value or else the quoted value; both image urls; the largest url preferring the main image and the smallest preferring the small one; `has_image` exactly when the largest url is present and not empty |
| `MetObject.EmptyPrimaryImageMeansNoImage` | art_accessors.py:147-149 | an empty `primaryImage` wins the coalesce over a present small image, so the object has no image |
| `MetArtAccessor.New` | art_accessors.py:36-61 | a new accessor has empty caches and no table, and satisfies the state invariant for every upstream |
| `MetArtAccessor.IdsFor` | art_accessors.py:245 | the ids read for a term are exactly the ids of its rows |
| `MetArtAccessor.NoRowsNoIds` | art_accessors.py:245-248 | a table with no row for the term yields no id |
| `MetArtAccessor.RowsOf` | art_accessors.py:126-127 | the inserted rows pair the term with each id, in order |
| `MetArtAccessor.LoadMetObject` | art_accessors.py:66-81 | the returned record is the upstream record; a cached record is returned with no change, a missing one is fetched and stored first-in-first-out |
| `MetArtAccessor.TakeTop` | art_accessors.py:118 | the kept ids are the leading `int(fraction * count)` of the result, in upstream order |
| `MetArtAccessor.TakeTopTenth` | art_accessors.py:99-118 | with the default tenth, n hits keep n div 10, so fewer than ten keep none |
| `MetArtAccessor.WithoutIds` | art_accessors.py:185-186 | the delete keeps exactly the rows of other ids, and leaves no row for a deleted id |
| `MetArtAccessor.WithoutIdsTwice` | art_accessors.py:185-186 | two deletes compose into one |
| `MetArtAccessor.WithoutNoIds` | art_accessors.py:185-186 | deleting no id changes nothing |
| `MetArtAccessor.ClearSearchResults` | art_accessors.py:156-171 | the delete keeps exactly the rows of other terms and touches neither cache; a missing table stays missing |
| `MetArtAccessor.ClearObject` | art_accessors.py:173-188 | the delete keeps exactly the rows of other objects, under every term, and touches neither cache |
| `MetArtAccessor.CachedSearch` | art_accessors.py:95-119 | a live cached result leaves the state as it is; a miss clears the term's rows; a non-null upstream result is then cached truncated, and a null one raises and caches nothing |
| `MetArtAccessor.AddSearchResults` | art_accessors.py:95-154 | adding search results keeps the state invariant and the object cache, and raises exactly when its search raises |
| `MetArtAccessor.AppendRows` | art_accessors.py:121-127 | the insert appends one row per id; the table exists afterwards exactly when it existed or something was inserted |
| `MetArtAccessor.AddSearchResultsCaches` | art_accessors.py:95-120 | an add raises exactly on a cache miss whose upstream result is null; otherwise the query reads back the list the add used; a cache hit leaves the search cache's contents alone |
| `MetArtAccessor.AddSearchResultsRows` | art_accessors.py:112-127 | after an add that does not raise, the table is the old one (cleared of the term on a miss) followed by one row per cached id |
| `MetArtAccessor.NullSearchKeepsCache` | art_accessors.py:95-121 | a null upstream result raises, leaves the term without rows and the search cache as it was, so the next add searches again |
| `MetArtAccessor.SampleKey` | art_accessors.py:244-248 | the random-row query fails exactly on a missing table, finds nothing exactly when the term has no row, and otherwise gives an id with a row under the term |
| `MetArtAccessor.GetObject` | art_accessors.py:190-220 | an object is found exactly when it has a row; it is then the projection of the upstream record, now cached; without a row nothing changes |
| `MetArtAccessor.Step` | art_accessors.py:244-250 | one draw: no table, no row for the term, or an id with a row whose projected object has an image exactly when the id is suitable |
| `MetArtAccessor.SampleWithRetries` | art_accessors.py:222-258 | the sampling loop keeps the state invariant and the search cache |
| `MetArtAccessor.RetriesBounded` | art_accessors.py:252-255 | a run starting at attempt a samples at most retries + 2 - a rows; it fails exactly on a missing table, having sampled nothing |
| `MetArtAccessor.RetriesSampleFromKey` | art_accessors.py:244-246 | the first sampled id has a row under the term |
| `MetArtAccessor.RetriesNothingLeft` | art_accessors.py:247-248 | a run returns nothing only once no row for the term is left |
| `MetArtAccessor.PrefixKeepsLast` | art_accessors.py:254-256 | a retry's outcome still describes the last sampled id after the rejected id is put in front |
| `MetArtAccessor.RetriesOutcome` | art_accessors.py:250-256 | a returned object is the projection of the last sampled id, and it has an image unless the retry budget ran out |
| `MetArtAccessor.RetriesClear` | art_accessors.py:252-255 | a run deletes exactly the rows of the ids it rejected |
| `MetArtAccessor.PrefixRejectsUnsuitable` | art_accessors.py:252-253 | putting an unsuitable rejected id in front keeps every rejected id unsuitable |
| `MetArtAccessor.RetriesRejectOnlyUnsuitable` | art_accessors.py:252-253 | every id a run deletes belongs to an object without an image |
| `MetArtAccessor.RetryCleared` | art_accessors.py:253-255 | the ids a retry deletes are the rejected id followed by those of the rest of the run |
| `MetArtAccessor.SearchedState` | art_accessors.py:240-241 | the loop starts from the state after the add when `search_if_absent`, where the query reads back the list the add used, and from the unchanged state otherwise |
| `MetArtAccessor.GetRandomArt` | art_accessors.py:222-258 | a call raises the search's error exactly when it searches and the search result is null, and then samples nothing and leaves the search cache alone; otherwise its draw is the retry loop run from the searched state with no attempts spent, and with `search_if_absent` the query's search result is live afterwards; without it the search cache is untouched |
| `MetArtAccessor.GetRandomArtReturnsLastSampled` | art_accessors.py:243-258 | a returned object is the projection of the last id sampled, and lacks an image only once the retry budget is spent |
| `MetArtAccessor.GetRandomArtFindsImage` | art_accessors.py:222-258 | when the query's rows hold an object with an image and at most `retries_for_image + 1` distinct objects without one, the call returns an object with an image |
| `MetArtAccessor.GetRandomArtNoImage` | art_accessors.py:222-258 | when no object under the query has an image and the budget covers them all, the call deletes every row of the query and returns nothing |
| `MetArtAccessor.DefaultRetriesBounded` | art_accessors.py:260-263 | with the default of ten retries a call samples at most twelve rows |
| `MetArtAccessor.ClearedObjectNeverSampled` | art_accessors.py:173-188 | once an object's rows are deleted, no draw under any term picks it |
| `MetArtAccessor.ClearedObjectReturnsOnCacheHit` | art_accessors.py:112-127 | while its search result stays cached, a deleted object's row comes back on the next add |
| `MetArtAccessor.FewHitsRaise` | art_accessors.py:112-248 | a first search with fewer than ten hits keeps none, creates no table, and the random-row query then raises |
| `MetArtAccessor.ClearShrinksUnsuitable` | art_accessors.py:185-186 | deleting an unsuitable id removes exactly that id from the term's unsuitable ids |
| `MetArtAccessor.EnoughRetriesFindImage` | art_accessors.py:250-256 | if the term has an object with an image and the budget covers every object without one, the run returns an object with an image |
| `MetArtAccessor.NoImageExhaustsRows` | art_accessors.py:247-256 | if no object of the term has an image and the budget covers them all, the run deletes every row of the term and returns nothing |
| `Content.Suffix` | classes.py:16-18 | the suffix is one of st, nd, rd, th, and is th for 11 to 13 |
| `Content.SuffixIsOrdinalBelowHundred` | classes.py:16-18 | for 1 to 99, including every day of a month, the suffix is the English ordinal suffix |
| `Content.SuffixDiffersFromOrdinalAt111` | classes.py:18 | past a hundred the range test is on the number itself, so 111 gets "st" |
| `Content.Find` | classes.py:49 | `str.index` gives the first occurrence, or nothing when there is none |
| `Content.RFind` | classes.py:50 | `str.rindex` gives the last occurrence, or nothing when there is none |
| `Content.Slice` | classes.py:48-50 | a Python slice is empty when its start passes its end |
| `Content.FindIs` | classes.py:49 | an occurrence with none before it is what `str.index` finds |
| `Content.RFindIs` | classes.py:50 | an occurrence with none after it is what `str.rindex` finds |
| `Content.Between` | classes.py:47-59 | text is cut out exactly when both tags occur |
| `Content.EncodedTitle` | classes.py:62 | the encoded title is missing exactly when the title is missing or empty, and otherwise is the quoted title |
| `Content.Timestamp` | classes.py:67-70 | a page without a timestamp tag reads as 0; otherwise the tag must read as an integer, and the value read is that integer |
| `Content.TimestampReadsBack` | classes.py:67-70 | a timestamp written in decimal reads back |
| `Content.PreviewExtracts` | classes.py:47-50 | the preview is the text from the first opening tag to the last closing tag |
| `Content.TitleExtracts` | classes.py:54-57 | the title is the text from the first `<h1>` to the first `</h1>` |
| `Content.InvertedTitleIsEmpty` | classes.py:54-62 | a closing tag before the opening one gives an empty title and no encoded title |
| `ContentOrganizer.FirstIsLargest` | classes.py:88-90 | in an index sorted newest first, the first timestamp is the largest |
| `ContentOrganizer.Insert` | classes.py:88-90 | inserting into a sorted sequence keeps it sorted and adds exactly the one element |
| `ContentOrganizer.SortDesc` | classes.py:88-90 | `sorted(..., reverse=True)` gives a permutation of its input sorted largest first |
| `ContentOrganizer.InsertStable` | classes.py:88-90 | an inserted element goes after every element with the same key |
| `ContentOrganizer.SortDescStable` | classes.py:88-90 | the sort is stable: elements sharing a key keep their input order |
| `ContentOrganizer.FilterSorted` | classes.py:97-100 | the posts of a sorted index are themselves sorted |
| `ContentOrganizer.Refresh` | classes.py:87-92 | a refresh succeeds exactly when every page's timestamp reads and every post has a title; it reports an unreadable timestamp exactly when there is one, before any missing title; a success is a permutation of the listing, newest first |
| `ContentOrganizer.PostLookup` | classes.py:92 | every entry of the lookup is a post of the index |
| `ContentOrganizer.PostLookupKeepsLast` | classes.py:92 | the lookup files every post under its lower-cased title, and under each title holds the last post in index order that carries it |
| `ContentOrganizer.RefreshedIsTitled` | classes.py:87-92 | every page of a successfully refreshed index can be filed in the post lookup |
| `ContentOrganizer.FirstUndated` | classes.py:88-90 | there is an error to raise exactly when some page's timestamp does not read |
| `ContentOrganizer.RefreshStable` | classes.py:88-90 | pages with the same timestamp stay in listing order |
| `ContentOrganizer.Posts` | classes.py:96-100 | the posts are exactly the pages whose type is `blog_post` |
| `ContentOrganizer.PostsSingle` | classes.py:96-100 | a single page yields itself when it is a post and nothing otherwise |
| `ContentOrganizer.PostsAppend` | classes.py:96-100 | the posts of two listings joined are the posts of the first followed by those of the second, so `posts` keeps index order |
| `ContentOrganizer.MostRecentPost` | classes.py:102-108 | there is a most recent post exactly when the index holds a post, and it is the first page of the index that is a post |
| `ContentOrganizer.RefreshedPostsAreListed` | classes.py:87-100 | the posts of a refreshed index are exactly the posts of the listing |
| `ContentOrganizer.MostRecentPostExists` | classes.py:102-108 | after a refresh there is a most recent post exactly when the listing holds a post |
| `ContentOrganizer.MostRecentPostIsLatest` | classes.py:88-108 | no post of the listing has a later timestamp than the most recent post |
| `ContentOrganizer.MostRecentPostFirstOfTies` | classes.py:88-108 | among posts with the top timestamp, the most recent post is the one listed first |
| `ContentOrganizer.PostsWithTopKey` | classes.py:88-100 | posts sharing a timestamp come in listing order in the index |
| `ArtApi.New` | classes.py:115-127 | a new service has an empty dictionary with the given bounds, never accessed and with no last object |
| `ArtApi.DefaultIds` | classes.py:140-143 | the fallback list is the object ids of the bundled records, in order |
| `ArtApi.Searched` | classes.py:133-147 | "Not Found" gives the bundled ids; any other reply gives its `objectIDs` |
| `ArtApi.PutTyped` | classes.py:144-169 | a stored entry keeps search results under search keys and records under object keys, stamped now |
| `ArtApi.MatchingObjects` | classes.py:129-151 | a live search result is returned with no change; otherwise the upstream answer is stored under `_art_type` and is what comes back |
| `ArtApi.MatchingObjectsTwice` | classes.py:129-151 | a second call at the same instant gives the same list, whatever the upstream would answer |
| `ArtApi.NotFoundFallsBackToDefaults` | classes.py:138-144 | a "Not Found" search gives the bundled ids |
| `ArtApi.GetObject` | classes.py:153-174 | it raises exactly when the matches are null or lack the id, or when a matching id has no live record and the upstream answers "Not Found", in which case nothing is cached; a returned record is the live cached one |
| `ArtApi.CachedObjectServed` | classes.py:157-174 | a listed id whose record is live is served from the dictionary with no change |
| `ArtApi.FetchedObjectReturned` | classes.py:160-174 | a listed id without a live record gets the upstream record |
| `ArtApi.RandomObject` | classes.py:176-186 | inside ten seconds of the last access the last object comes back as is; otherwise a success records the object and the instant, a failure records nothing, and an empty match list is the sampling error |
| `ArtApi.DrawIsAMatch` | classes.py:181-183 | the id drawn is always among the matches |
| `ArtApi.RandomObjectServesDraw` | classes.py:176-186 | outside the repeat window a success serves the record of the drawn matching id: the record live in the dictionary, or else the record the endpoint sends |
| `ArtApi.ArtChangePeriodUnused` | classes.py:127-186 | the art change period has no effect on `random_object` |
| `ArtApi.MatchingObjectsReadsCache` | classes.py:129-151 | the matching objects depend only on the dictionary and the art type |
| `ArtApi.GetObjectReadsCache` | classes.py:153-174 | a record lookup depends only on the dictionary and the art type |
| `ArtApi.GetSample` | classes.py:189-196 | a sample draws from the type's existing service, or from a new one with the default bounds, keeps the updated service and returns its `random_object` result; every other type's service is left alone |
| `ArtApi.ServiceFor` | classes.py:194-195 | the service drawn from is the existing one for a known type and a default new one otherwise |
| `ArtApi.SampleReusesService` | classes.py:194-196 | after a first sample the type's service exists, and a second sample draws from that stored service |
| `ArtApi.SampleRepeatsAtOnce` | classes.py:176-196 | a second sample of the same art type at the same instant repeats the first, whatever the upstream and the draw |
| `TextNodes.GetTextNodesIn` | static/base_scripts.js:14-30 | a missing element gives no nodes; every node returned is a text node |
| `TextNodes.Collect` | static/base_scripts.js:17-27 | the walk returns only text nodes |
| `TextNodes.CollectChildren` | static/base_scripts.js:17-27 | the loop over the children returns only text nodes |
| `TextNodes.CollectIsReverseDocumentOrder` | static/base_scripts.js:17-27 | walking children last to first gives the kept text nodes in reverse document order |
| `TextNodes.ChildrenReverse` | static/base_scripts.js:17-27 | the same for the first k children of a node |
| `TextNodes.AcceptingFilterIsNoFilter` | static/base_scripts.js:20 | a filter that accepts everything gives what no filter gives |
| `TextNodes.AcceptingFilterChildren` | static/base_scripts.js:20 | the same for the first k children of a node |
| `TextNodes.ChildTextKept` | static/base_scripts.js:19-22 | a direct text child that the filter keeps is in the result |
| `TextNodes.ChildTextKeptUpTo` | static/base_scripts.js:19-22 | the same for the first k children of a node |
| `TextNodes.SkippedSubtree` | static/base_scripts.js:24-26 | the subtree of a node that is neither an element, a document nor a fragment contributes nothing |
| `Smarten.OpenPass` | static/base_scripts.js:35-37 | the opening pass keeps the length |
| `Smarten.OpenPassPointwise` | static/base_scripts.js:35-37 | a global replace of the opening pattern opens exactly the quotes that start the text or follow a character of the class |
| `Smarten.ClosePass` | static/base_scripts.js:36-38 | the closing pass turns every remaining straight quote into the closing one and changes nothing else |
| `Smarten.SmartQuotes` | static/base_scripts.js:35-38 | the four quote passes keep the length |
| `Smarten.SmartQuotesPointwise` | static/base_scripts.js:35-38 | after the quote passes, each character is determined by its own position and its left neighbour in the input |
| `Smarten.DashPass` | static/base_scripts.js:39 | the em-dash pass leaves no two hyphens in a row; it keeps a leading single hyphen |
| `Smarten.DashPassLength` | static/base_scripts.js:39 | each replaced pair shortens the text by one |
| `Smarten.DashPassChars` | static/base_scripts.js:39 | the pass adds no character but the em dash |
| `Smarten.Expand` | static/base_scripts.js:39 | the inverse of the em-dash pass produces no em dash |
| `Smarten.DashPassRoundTrip` | static/base_scripts.js:39 | on text without an em dash, expanding each em dash back to `--` undoes the pass |
| `Smarten.ExpandAppend` | static/base_scripts.js:39 | expansion distributes over concatenation |
| `Smarten.DashPassIdentity` | static/base_scripts.js:39 | text with no `--` passes unchanged |
| `Smarten.DashPairsByHyphens` | static/base_scripts.js:39 | the number of pairs replaced depends only on where the hyphens are |
| `Smarten.Smarten` | static/base_scripts.js:34-41 | the result has no two hyphens in a row |
| `Smarten.SmartenNoStraightQuotes` | static/base_scripts.js:34-41 | the result has no straight quote of either kind |
| `Smarten.SmartenLength` | static/base_scripts.js:34-41 | only the em-dash pass changes the length, by one per pair |
| `Smarten.SmartenIdentity` | static/base_scripts.js:34-41 | text with no straight quote and no `--` is returned unchanged |
| `Smarten.SmartenIdempotent` | static/base_scripts.js:34-41 | smartening twice is smartening once |
| `Smarten.SpaceThenTwoQuotes` | static/base_scripts.js:35-36 | after a space, `''` becomes an opening and a closing single quote |
| `FineArt.RandomArtUrl` | static/base_scripts.js:60-64 | without a truthy art type the URL is the bare path; with one, the art type follows `?art_type=` |
| `FineArt.ArtTypeOf` | static/base_scripts.js:60-64 | reading an art type out of a URL inverts the construction |
| `FineArt.UrlRoundTrip` | static/base_scripts.js:60-64 | the art type reads back from the URL exactly when it is truthy |
| `FineArt.UrlInjective` | static/base_scripts.js:62-63 | different truthy art types give different URLs |
| `SunsetGifs.New` | images_cloudinary.py:14-19 | a new feed has no data and was last fetched at 0 |
| `SunsetGifs.RawSearchData` | images_cloudinary.py:28-34 | fresh non-empty data is returned as is; otherwise a search runs, stamped now, and a falsy reply is stored as `{}` |
| `SunsetGifs.WithinPeriodNoSearch` | images_cloudinary.py:30 | within the period non-empty data does not depend on the search |
| `SunsetGifs.NoRefreshAtExactPeriod` | images_cloudinary.py:30 | the age test is strict: data exactly one period old is still served |
| `SunsetGifs.EmptyReplySearchesAgain` | images_cloudinary.py:30-33 | an empty reply makes the next read search again, however soon |
| `SunsetGifs.FreshDataServed` | images_cloudinary.py:30-34 | a non-empty reply is served until the period is over |
| `SunsetGifs.SecondReadAgrees` | images_cloudinary.py:28-34 | a second read at the same instant gives the same data |
| `SunsetGifs.MostRecentImage` | images_cloudinary.py:36-42 | the most recent image is the first resource, or `{}` without resources |
| `SunsetGifs.FindFrom` | images_cloudinary.py:47 | the search gives the first occurrence at or after the start |
| `SunsetGifs.LazyEnd` | images_cloudinary.py:47 | the lazy `.*?` ends at the first `/sunset_gifs` reachable without crossing a newline |
| `SunsetGifs.MatchAt` | images_cloudinary.py:47 | a match from a position ends within the text, past its start when an empty match is not allowed |
| `SunsetGifs.NextMatch` | images_cloudinary.py:47 | the next match lies within the text, and is not empty where it would repeat the last one |
| `SunsetGifs.MostRecentUrl` | images_cloudinary.py:44-47 | reading the URL reads the search data as the most recent image does |
| `SunsetGifs.MissingUrlIsEmpty` | images_cloudinary.py:46-47 | an image without `secure_url` gives the empty string |
| `SunsetGifs.UrlOfFirstResource` | images_cloudinary.py:38-47 | the URL is the rewritten `secure_url` of the first resource |
| `SunsetGifs.NoLookaheadNoMatch` | images_cloudinary.py:47 | without `/sunset_gifs` the pattern never matches |
| `SunsetGifs.NoLookbehindNoMatch` | images_cloudinary.py:47 | without `upload/` the pattern never matches |
| `SunsetGifs.NoLookaheadUnchanged` | images_cloudinary.py:47 | a URL without `/sunset_gifs` is not rewritten |
| `SunsetGifs.NoLookbehindUnchanged` | images_cloudinary.py:47 | a URL without `upload/` is not rewritten |
| `SunsetGifs.RewriteBetweenMarkers` | images_cloudinary.py:47 | in a URL with one `upload/` and one later `/sunset_gifs`, exactly the text between them becomes `f_auto,fl_lossy/q_60` |
| `SunsetGifs.RewriteOneMatch` | images_cloudinary.py:47 | a single match is replaced and the rest of the text kept |
| `SunsetGifs.FindFromIs` | images_cloudinary.py:47 | an occurrence with none before it from the start is what the search finds |
| `SunsetGifs.NoEarlierMatch` | images_cloudinary.py:47 | positions before the only lookbehind cannot start a match |
| `SunsetGifs.NoLaterMatch` | images_cloudinary.py:47 | with no `/sunset_gifs` after a position, nothing more matches there |
| `SunsetGifs.NoLookbehindAfter` | images_cloudinary.py:47 | with no `upload/` ending at or after a position, nothing more matches there |

## Left out

- Network access is not modelled. The Met collection API, Cloudinary search and the bundled `ten_landscapes.json` become parameters or replies.
- SQL execution and JSON parsing are not modelled. The view's `->>` extraction is modelled by optional string fields of the record.
- The DuckDB memory settings and the registration of user functions are left out. They configure the engine and change no result.
- Concurrency is left out: `asyncify`, `aiohttp`, the thread pool executors and the event loop. Each operation is atomic in the model.
- Each call reads the clock once. `random_object` and `raw_search_data` call `time()` twice, and the two caches read their own clock on every access; the model uses one instant for all of these reads. This leaves out two error paths that need time to pass inside one call:
  - `_add_search_results`: a search result live at the `not in self.search_cache` test can expire before `self.search_cache[...]` is read, which then raises `KeyError` (art_accessors.py:112-120).
  - `matching_objects`: the search result can expire between the `in` test and `self.cache.get(...)`, so `get` returns `None`, and `object_id not in None` in `get_object` raises `TypeError` (classes.py:130-160).
- `MetArtAccessor.GetObject` loads only the requested object. The view may call `get_met_object` for other rows too, depending on how DuckDB pushes the filter down, so the object cache may hold more records than the model shows.
- `ArtApi.GetObject`: the source's final `cache.get` can in principle find nothing. The model always returns the stored record when the dictionary's age bound is positive, and its contract says nothing about a zero bound.
- `ArtApi.Searched`: a search reply without an `objectIDs` key raises `KeyError` in the art service. This case is not modelled; a null `objectIDs` is. In the accessor a missing key reads as no ids, and a null one raises `TypeError`; both are modelled.
- `SunsetGifs.MostRecentImage`: a `secure_url` that is JSON null is not modelled. A missing key stands for it.
- Object records are assumed truthy, as every non-empty JSON object is.
- `Content.Timestamp`: `int()` is modelled only on plain ASCII decimal strings with an optional `-`. It does not model surrounding white space, a `+` sign, `_` digit separators or the non-ASCII decimal digits Python also accepts.
- The metadata regex over the raw HTML and the file reading are not modelled. A page is given as its raw HTML and its metadata map.
- `ContentOrganizer.PostLookup`: Python's `str.lower` is a parameter, not modelled.
- `post_regex` is left out. It is a regular expression built from the lookup's keys, and no modelled operation reads it.
- The state `refresh` leaves when it raises is not modelled. The source has already replaced `content` when the post lookup raises; the model only reports the error.
- `formatted_date` and `custom_strftime` are left out because they depend on date formatting; only `suffix` is modelled.
- `random_id`, `build_html` and `draw` of static/base_scripts.js are left out. They are randomness and DOM output.
- `MetArtAccessor.TakeTop`: the leading fraction is the rational `num / den`, where the source computes `int(take_top_fraction * len(...))` in floating point. For the only fraction used, `.1`, the two agree for every count below about 2^50; larger counts and other fractions are not modelled.
- `FifoCache.Empty`, `TtlCache.Empty`: a capacity of at least one and a positive time to live are required. cachetools also accepts a zero size, where every store raises `ValueError`, and a time to live of zero or less, where the read after a store raises `KeyError`. Those configurations are not modelled.
- `MetArtAccessor.Consistent`: the upstream object fetch is taken to be a fixed function of the id, so a cached record is what the upstream returns for that id. A record that changes upstream while a copy is cached is not modelled.
- `Smarten.SmartenLength`, `Smarten.DashPassLength`: lengths count Unicode code points. JavaScript counts UTF-16 code units, so the numbers differ for text with characters outside the Basic Multilingual Plane.
- exoplanets.py, cme_table.py, app.py and the pyodide helpers are not part of this model.

=== FILE: art_api.dfy ===
/** The older art service of classes.py: `ArtApi` keeps one expiring
    dictionary per art type holding the search result for the type and every
    object record fetched for it, and `Curator` keeps one `ArtApi` per art
    type. The Met collection API, the bundled default list and the clock are
    parameters. */
module ArtApi {
  import opened Base
  import opened MetObject
  import ExpiringDict

  /** The reply of the search endpoint: the "Not Found" message, or the
      `objectIDs` field (JSON null when nothing matched). */
  datatype SearchReply = SearchNotFound | SearchFound(objectIDs: Option<seq<int>>)

  /** The reply of the object endpoint: the "Not Found" message, or the record. */
  datatype ObjectReply = ObjectNotFound | ObjectFound(record: MetJson)

  /** The collection API (the search endpoint is given the `quotePlus`-quoted
      art type) and the records of the bundled `ten_landscapes.json`. */
  datatype Upstream = Upstream(
    search: string -> SearchReply,
    fetch: int -> ObjectReply,
    quotePlus: string -> string,
    defaults: seq<MetJson>)

  /** Keys of the dictionary: the string `"_" + art type` for the search
      result, and the integer object id for a record. A string and an integer
      never compare equal in Python, so the two kinds never collide. */
  datatype Key = SearchKey(artType: string) | ObjectKey(id: int)

  /** Stored values: a search result (possibly JSON null) or an object record. */
  datatype Value = Ids(ids: Option<seq<int>>) | Record(record: MetJson)

  /** What the operations raise: `KeyError` for an id outside the search
      result, `KeyError` for an id the object endpoint does not know,
      `ValueError` from sampling an empty result, and `TypeError` from
      treating a null search result as a list. */
  datatype ApiError = NotInMatches(id: int) | NotFoundUpstream(id: int) | EmptySample | NullMatches

  const DefaultMaxCacheLen: nat := 10000
  const DefaultMaxAgeSeconds: real := 43200.0
  const DefaultNewArtMinSec: real := 0.0

  /** How long `random_object` keeps answering with the last object. */
  const RepeatWindow: real := 10.0

  datatype Api = Api(
    artType: string,
    cache: ExpiringDict.Dict<Key, Value>,
    lastAccessed: real,
    lastObject: Option<MetJson>,
    artChangePeriod: real)

  /** Search results sit under search keys and records under object keys. */
  ghost predicate WellTyped(d: ExpiringDict.Dict<Key, Value>) {
    forall k :: k in d.entries.data ==> (k.SearchKey? <==> d.entries.data[k].value.Ids?)
  }

  ghost predicate Valid(a: Api) {
    ExpiringDict.Valid(a.cache) && WellTyped(a.cache)
  }

  /** `ArtApi(art_type, max_cache_len, max_age_seconds, new_art_min_sec)`;
      the dictionary itself asserts a positive length and a non-negative age. */
  function New(artType: string, maxCacheLen: nat, maxAgeSeconds: real, newArtMinSec: real): (a: Api)
    requires maxCacheLen >= 1 && maxAgeSeconds >= 0.0
    ensures Valid(a) && a.cache.entries.data == map[]
    ensures a.cache.maxLen == maxCacheLen && a.cache.maxAge == maxAgeSeconds
    ensures a.artType == artType && a.artChangePeriod == newArtMinSec
    ensures a.lastAccessed == 0.0 && a.lastObject == None
  {
    Api(artType, ExpiringDict.Empty(maxCacheLen, maxAgeSeconds), 0.0, None, newArtMinSec)
  }

  /** The ids of the bundled default records, in file order. */
  function DefaultIds(defaults: seq<MetJson>): (r: seq<int>)
    ensures |r| == |defaults|
    ensures forall i :: 0 <= i < |r| ==> r[i] == defaults[i].objectID
  {
    if defaults == [] then [] else [defaults[0].objectID] + DefaultIds(defaults[1..])
  }

  /** The result a fresh search stores: the bundled ids when the endpoint
      answers "Not Found", its `objectIDs` otherwise. */
  function Searched(up: Upstream, artType: string): (r: Option<seq<int>>)
    ensures up.search(up.quotePlus(artType)).SearchNotFound? ==> r == Some(DefaultIds(up.defaults))
    ensures up.search(up.quotePlus(artType)).SearchFound? ==> r == up.search(up.quotePlus(artType)).objectIDs
  {
    match up.search(up.quotePlus(artType))
    case SearchNotFound => Some(DefaultIds(up.defaults))
    case SearchFound(ids) => ids
  }

  /** Writing a value of the right kind keeps the dictionary well typed. */
  function PutTyped(d: ExpiringDict.Dict<Key, Value>, now: real, k: Key, v: Value): (r: ExpiringDict.Dict<Key, Value>)
    requires ExpiringDict.Valid(d) && WellTyped(d)
    requires k.SearchKey? <==> v.Ids?
    ensures ExpiringDict.Valid(r) && WellTyped(r)
    ensures r.maxLen == d.maxLen && r.maxAge == d.maxAge
    ensures k in r.entries.data && r.entries.data[k] == ExpiringDict.Entry(v, now)
    ensures d.maxAge > 0.0 ==> ExpiringDict.Live(r, now, k)
  {
    ExpiringDict.Put(d, now, k, v)
  }

  /** `matching_objects` at `now`: searches (and stores the result) unless the
      search key is live, then reads the search key back. Reading back at the
      same instant finds the stored result whenever entries live at all. */
  function MatchingObjects(a: Api, up: Upstream, now: real): (r: (Api, Option<seq<int>>))
    requires Valid(a)
    ensures Valid(r.0)
    ensures r.0 == a.(cache := r.0.cache)
    ensures r.0.cache.maxLen == a.cache.maxLen && r.0.cache.maxAge == a.cache.maxAge
    ensures ExpiringDict.Live(a.cache, now, SearchKey(a.artType)) ==>
              r.0 == a && r.1 == a.cache.entries.data[SearchKey(a.artType)].value.ids
    ensures !ExpiringDict.Live(a.cache, now, SearchKey(a.artType)) && a.cache.maxAge > 0.0 ==>
              r.1 == Searched(up, a.artType)
    ensures a.cache.maxAge > 0.0 ==>
              ExpiringDict.Live(r.0.cache, now, SearchKey(a.artType)) &&
              r.0.cache.entries.data[SearchKey(a.artType)].value == Ids(r.1)
  {
    var key := SearchKey(a.artType);
    var (c1, present) := ExpiringDict.Contains(a.cache, now, key);
    var c2 := if present then c1 else PutTyped(c1, now, key, Ids(Searched(up, a.artType)));
    var (c3, got) := ExpiringDict.Get(c2, now, key);
    (a.(cache := c3), if got.Some? && got.value.Ids? then got.value.ids else None)
  }

  /** A second `matching_objects` at the same instant returns the same ids
      without searching, and changes nothing. */
  lemma MatchingObjectsTwice(a: Api, up: Upstream, up': Upstream, now: real)
    requires Valid(a) && a.cache.maxAge > 0.0
    ensures var (a1, ids) := MatchingObjects(a, up, now);
            MatchingObjects(a1, up', now) == (a1, ids)
  {
  }

  /** When the endpoint does not know the art type, the bundled ids stand in. */
  lemma NotFoundFallsBackToDefaults(a: Api, up: Upstream, now: real)
    requires Valid(a) && a.cache.maxAge > 0.0
    requires !ExpiringDict.Live(a.cache, now, SearchKey(a.artType))
    requires up.search(up.quotePlus(a.artType)).SearchNotFound?
    ensures MatchingObjects(a, up, now).1 == Some(DefaultIds(up.defaults))
  {
  }

  /** `get_object(id)` at `now`: the id must be among the matching objects;
      a record not live in the dictionary is fetched and stored, unless the
      endpoint does not know it, which raises and stores nothing. */
  function GetObject(a: Api, up: Upstream, now: real, id: int): (r: (Api, Result<Option<MetJson>, ApiError>))
    requires Valid(a)
    ensures Valid(r.0)
    ensures r.0 == a.(cache := r.0.cache)
    ensures r.0.cache.maxLen == a.cache.maxLen && r.0.cache.maxAge == a.cache.maxAge
    ensures r.1 == Err(NullMatches) <==> MatchingObjects(a, up, now).1.None?
    ensures r.1 == Err(NotInMatches(id)) <==>
              MatchingObjects(a, up, now).1.Some? && id !in MatchingObjects(a, up, now).1.value
    ensures r.1.Err? && r.1.error.NotFoundUpstream? ==>
              up.fetch(id).ObjectNotFound? && ObjectKey(id) !in r.0.cache.entries.data
    ensures var (a1, matches) := MatchingObjects(a, up, now);
            (matches.Some? && id in matches.value && !ExpiringDict.Live(a1.cache, now, ObjectKey(id)) &&
             up.fetch(id).ObjectNotFound?) ==> r.1 == Err(NotFoundUpstream(id))
    ensures r.1.Ok? && a.cache.maxAge > 0.0 ==>
              r.1.value.Some? && ExpiringDict.Live(r.0.cache, now, ObjectKey(id)) &&
              r.0.cache.entries.data[ObjectKey(id)].value == Record(r.1.value.value)
  {
    var (a1, matches) := MatchingObjects(a, up, now);
    match matches
    case None => (a1, Err(NullMatches))
    case Some(ids) =>
      if id !in ids then (a1, Err(NotInMatches(id)))
      else
        var key := ObjectKey(id);
        var (c1, present) := ExpiringDict.Contains(a1.cache, now, key);
        if !present && up.fetch(id).ObjectNotFound? then (a1.(cache := c1), Err(NotFoundUpstream(id)))
        else
          var c2 := if present then c1 else PutTyped(c1, now, key, Record(up.fetch(id).record));
          var (c3, got) := ExpiringDict.Get(c2, now, key);
          (a1.(cache := c3), Ok(if got.Some? && got.value.Record? then Some(got.value.record) else None))
  }

  /** A record that is live in the dictionary, for an id of a live search
      result, is served as stored: the upstream is not consulted and nothing changes. */
  lemma CachedObjectServed(a: Api, up: Upstream, now: real, id: int)
    requires Valid(a)
    requires ExpiringDict.Live(a.cache, now, SearchKey(a.artType))
    requires a.cache.entries.data[SearchKey(a.artType)].value.ids.Some?
    requires id in a.cache.entries.data[SearchKey(a.artType)].value.ids.value
    requires ExpiringDict.Live(a.cache, now, ObjectKey(id))
    ensures GetObject(a, up, now, id) == (a, Ok(Some(a.cache.entries.data[ObjectKey(id)].value.record)))
  {
  }

  /** A record that is not live is fetched: the call returns what the endpoint sends. */
  lemma FetchedObjectReturned(a: Api, up: Upstream, now: real, id: int)
    requires Valid(a) && a.cache.maxAge > 0.0
    requires MatchingObjects(a, up, now).1.Some? && id in MatchingObjects(a, up, now).1.value
    requires !ExpiringDict.Live(MatchingObjects(a, up, now).0.cache, now, ObjectKey(id))
    requires up.fetch(id).ObjectFound?
    ensures GetObject(a, up, now, id).1 == Ok(Some(up.fetch(id).record))
  {
  }

  /** The repeat rule of `random_object`: within ten seconds of the last
      successful draw, with an object remembered. */
  predicate Repeats(a: Api, now: real) {
    now < a.lastAccessed + RepeatWindow && a.lastObject.Some?
  }

  /** `random_object` at `now`: the remembered object inside the repeat
      window; otherwise one id drawn from the matching objects (`pick` gives
      the draw for a population size), its record fetched, remembered and
      stamped `now`. */
  function RandomObject(a: Api, up: Upstream, now: real, pick: nat -> nat): (r: (Api, Result<Option<MetJson>, ApiError>))
    requires Valid(a)
    ensures Valid(r.0)
    ensures r.0.artType == a.artType && r.0.artChangePeriod == a.artChangePeriod
    ensures r.0.cache.maxLen == a.cache.maxLen && r.0.cache.maxAge == a.cache.maxAge
    ensures Repeats(a, now) ==> r == (a, Ok(a.lastObject))
    ensures !Repeats(a, now) && r.1.Ok? ==> r.0.lastAccessed == now && r.0.lastObject == r.1.value
    ensures !Repeats(a, now) && r.1.Err? ==> r.0.lastAccessed == a.lastAccessed && r.0.lastObject == a.lastObject
    ensures r.1 == Err(EmptySample) <==> !Repeats(a, now) && MatchingObjects(a, up, now).1 == Some([])
  {
    if Repeats(a, now) then (a, Ok(a.lastObject))
    else
      var (a1, matches) := MatchingObjects(a, up, now);
      match matches
      case None => (a1, Err(NullMatches))
      case Some(ids) =>
        if |ids| == 0 then (a1, Err(EmptySample))
        else
          var (a2, got) := GetObject(a1, up, now, ids[pick(|ids|) % |ids|]);
          match got
          case Err(e) => (a2, Err(e))
          case Ok(obj) => (a2.(lastObject := obj, lastAccessed := now), Ok(obj))
  }

  /** The drawn id is one of the matching objects, so a draw never fails with
      an id outside them (entries that live at all stay live within the call). */
  lemma DrawIsAMatch(a: Api, up: Upstream, now: real, pick: nat -> nat)
    requires Valid(a) && a.cache.maxAge > 0.0
    ensures var res := RandomObject(a, up, now, pick).1;
            !(res.Err? && res.error.NotInMatches?)
  {
    if !Repeats(a, now) {
      var (a1, matches) := MatchingObjects(a, up, now);
      MatchingObjectsTwice(a, up, up, now);
    }
  }

  /** Outside the repeat window a successful draw serves the record of the
      drawn matching id: the record live in the dictionary when there is
      one, otherwise the record the endpoint sends for it. */
  lemma RandomObjectServesDraw(a: Api, up: Upstream, now: real, pick: nat -> nat)
    requires Valid(a) && a.cache.maxAge > 0.0 && !Repeats(a, now)
    ensures var (a1, matches) := MatchingObjects(a, up, now);
            var r := RandomObject(a, up, now, pick).1;
            r.Ok? ==>
              && matches.Some? && |matches.value| > 0
              && var id := matches.value[pick(|matches.value|) % |matches.value|];
                 && id in matches.value
                 && (ExpiringDict.Live(a1.cache, now, ObjectKey(id)) ==>
                       r.value == Some(a1.cache.entries.data[ObjectKey(id)].value.record))
                 && (!ExpiringDict.Live(a1.cache, now, ObjectKey(id)) ==>
                       up.fetch(id).ObjectFound? && r.value == Some(up.fetch(id).record))
  {
    var (a1, matches) := MatchingObjects(a, up, now);
    MatchingObjectsTwice(a, up, up, now);
    if matches.Some? && |matches.value| > 0 {
      var id := matches.value[pick(|matches.value|) % |matches.value|];
      if ExpiringDict.Live(a1.cache, now, ObjectKey(id)) {
        CachedObjectServed(a1, up, now, id);
      } else if up.fetch(id).ObjectFound? {
        FetchedObjectReturned(a1, up, now, id);
      }
    }
  }

  /** The stored `new_art_min_sec` plays no part: the repeat window is fixed
      at ten seconds whatever the period. */
  lemma ArtChangePeriodUnused(a: Api, up: Upstream, now: real, pick: nat -> nat, period: real)
    requires Valid(a)
    ensures var r := RandomObject(a, up, now, pick);
            var r' := RandomObject(a.(artChangePeriod := period), up, now, pick);
            r'.1 == r.1 && r'.0 == r.0.(artChangePeriod := period)
  {
    var b := a.(artChangePeriod := period);
    if !Repeats(a, now) {
      var (a1, m) := MatchingObjects(a, up, now);
      MatchingObjectsReadsCache(a, b, up, now);
      var b1 := MatchingObjects(b, up, now).0;
      assert b1 == a1.(artChangePeriod := period);
      if m.Some? && |m.value| > 0 {
        var id := m.value[pick(|m.value|) % |m.value|];
        GetObjectReadsCache(a1, b1, up, now, id);
      }
    }
  }

  /** `matching_objects` reads and writes only the art type and the dictionary. */
  lemma MatchingObjectsReadsCache(a: Api, b: Api, up: Upstream, now: real)
    requires Valid(a) && b.cache == a.cache && b.artType == a.artType
    ensures MatchingObjects(b, up, now) == (b.(cache := MatchingObjects(a, up, now).0.cache), MatchingObjects(a, up, now).1)
  {
  }

  /** `get_object` reads and writes only the art type and the dictionary. */
  lemma GetObjectReadsCache(a: Api, b: Api, up: Upstream, now: real, id: int)
    requires Valid(a) && b.cache == a.cache && b.artType == a.artType
    ensures GetObject(b, up, now, id) == (b.(cache := GetObject(a, up, now, id).0.cache), GetObject(a, up, now, id).1)
  {
    MatchingObjectsReadsCache(a, b, up, now);
  }

  /** `Curator`: one `ArtApi` per art type, created on first use. */
  datatype Curator = Curator(collections: map<string, Api>)

  ghost predicate CuratorValid(c: Curator) {
    forall t :: t in c.collections ==> Valid(c.collections[t]) && c.collections[t].artType == t
  }

  /** The service `get_sample` draws from: the type's existing `ArtApi`, or a
      new one with the default settings. */
  function ServiceFor(c: Curator, artType: string): (api: Api)
    requires CuratorValid(c)
    ensures Valid(api) && api.artType == artType
    ensures artType in c.collections ==> api == c.collections[artType]
    ensures artType !in c.collections ==>
              api == New(artType, DefaultMaxCacheLen, DefaultMaxAgeSeconds, DefaultNewArtMinSec)
  {
    if artType in c.collections then c.collections[artType]
    else New(artType, DefaultMaxCacheLen, DefaultMaxAgeSeconds, DefaultNewArtMinSec)
  }

  /** `get_sample(art_type)`: a random object of the type, creating its
      `ArtApi` with the default settings when the type is new and reusing it
      afterwards. The updated `ArtApi` is kept even when the draw raises. */
  function GetSample(c: Curator, up: Upstream, now: real, artType: string, pick: nat -> nat): (r: (Curator, Result<Option<MetJson>, ApiError>))
    requires CuratorValid(c)
    ensures CuratorValid(r.0)
    ensures r.0.collections.Keys == c.collections.Keys + {artType}
    ensures forall t :: t in c.collections && t != artType ==> r.0.collections[t] == c.collections[t]
    ensures artType !in c.collections ==>
              r.0.collections[artType].cache.maxLen == DefaultMaxCacheLen &&
              r.0.collections[artType].cache.maxAge == DefaultMaxAgeSeconds &&
              r.0.collections[artType].artChangePeriod == DefaultNewArtMinSec
    ensures artType in c.collections ==>
              r.0.collections[artType].cache.maxLen == c.collections[artType].cache.maxLen &&
              r.0.collections[artType].cache.maxAge == c.collections[artType].cache.maxAge
    ensures var (api', res) := RandomObject(ServiceFor(c, artType), up, now, pick);
            r.0.collections[artType] == api' && r.1 == res
  {
    var api := ServiceFor(c, artType);
    var (api', res) := RandomObject(api, up, now, pick);
    (Curator(c.collections[artType := api']), res)
  }

  /** A second sample of a type reuses the service the first one stored:
      no new `ArtApi` is created for it. */
  lemma SampleReusesService(c: Curator, up: Upstream, up': Upstream, now: real, later: real, artType: string,
                            pick: nat -> nat, pick': nat -> nat)
    requires CuratorValid(c)
    ensures var c1 := GetSample(c, up, now, artType, pick).0;
            ServiceFor(c1, artType) == c1.collections[artType] &&
            GetSample(c1, up', later, artType, pick').0.collections[artType] ==
              RandomObject(c1.collections[artType], up', later, pick').0
  {
  }

  /** A successful sample that returned an object is repeated by a second
      call at the same instant, which changes nothing. */
  lemma SampleRepeatsAtOnce(c: Curator, up: Upstream, up': Upstream, now: real, artType: string,
                            pick: nat -> nat, pick': nat -> nat)
    requires CuratorValid(c)
    requires var res := GetSample(c, up, now, artType, pick).1; res.Ok? && res.value.Some?
    ensures var (c1, res) := GetSample(c, up, now, artType, pick);
            GetSample(c1, up', now, artType, pick') == (c1, res)
  {
    var (c1, res) := GetSample(c, up, now, artType, pick);
    var api := c1.collections[artType];
    assert Repeats(api, now);
    assert c1.collections[artType := api] == c1.collections;
  }
}

=== FILE: base.dfy ===
/** Small shared vocabulary: optional values, results with an error, and a
    few facts about sequences used by the cache and table models. */
module Base {

  /** A value that may be absent: Python's `None`, a SQL NULL, a missing JSON key. */
  datatype Option<+T> = None | Some(value: T) {

    /** The wrapped value, or `default` when absent (Python's `x or default`
        when only absence is falsy). */
    function GetOr(default: T): T {
      match this
      case Some(v) => v
      case None => default
    }
  }

  /** An outcome that is either a value or the error the source raises. */
  datatype Result<+R, +E> = Ok(value: R) | Err(error: E)

  /** No element occurs twice. */
  ghost predicate Distinct<T>(s: seq<T>) {
    forall i, j :: 0 <= i < j < |s| ==> s[i] != s[j]
  }

  /** `s` with every occurrence of `x` dropped, the rest in order. */
  function Without<T(==)>(s: seq<T>, x: T): (r: seq<T>)
    ensures forall i :: 0 <= i < |r| ==> r[i] in s && r[i] != x
    ensures forall i :: 0 <= i < |s| && s[i] != x ==> s[i] in r
    ensures x !in s ==> r == s
    ensures Distinct(s) ==> Distinct(r)
    ensures Distinct(s) && x in s ==> |r| == |s| - 1
    ensures |r| <= |s|
  {
    if s == [] then []
    else if s[0] == x then Without(s[1..], x)
    else [s[0]] + Without(s[1..], x)
  }

  /** Appending an element that is not yet present keeps a sequence distinct. */
  lemma AppendFreshDistinct<T>(s: seq<T>, x: T)
    requires Distinct(s) && x !in s
    ensures Distinct(s + [x])
  {
  }

  /** A suffix of `s` is the same suffix without its last element, plus that element. */
  lemma SuffixSnoc<T>(s: seq<T>, i: nat)
    requires i < |s|
    ensures s[i..|s| - 1] + [s[|s| - 1]] == s[i..]
  {
  }

  /** Every element of `s` that satisfies `keep`, in order. */
  function Filter<T>(s: seq<T>, keep: T -> bool): (r: seq<T>)
    ensures |r| <= |s|
  {
    if s == [] then []
    else (if keep(s[0]) then [s[0]] else []) + Filter(s[1..], keep)
  }

  /** The first element the filter keeps is the first element of `s` that
      satisfies `keep`. */
  lemma {:induction false} FilterFirst<T>(s: seq<T>, keep: T -> bool)
    requires Filter(s, keep) != []
    ensures exists i :: 0 <= i < |s| && s[i] == Filter(s, keep)[0] && keep(s[i]) &&
                        forall j :: 0 <= j < i ==> !keep(s[j])
  {
    if !keep(s[0]) {
      assert Filter(s, keep) == Filter(s[1..], keep);
      FilterFirst(s[1..], keep);
      var i :| 0 <= i < |s[1..]| && s[1..][i] == Filter(s, keep)[0] && keep(s[1..][i]) &&
        forall j :: 0 <= j < i ==> !keep(s[1..][j]);
      assert s[i + 1] == Filter(s, keep)[0];
      assert forall j :: 1 <= j < i + 1 ==> s[j] == s[1..][j - 1];
    }
  }

  /** The filtered sequence holds exactly the elements that satisfy `keep`. */
  lemma {:induction false} FilterMembers<T>(s: seq<T>, keep: T -> bool)
    ensures forall i :: 0 <= i < |Filter(s, keep)| ==> Filter(s, keep)[i] in s && keep(Filter(s, keep)[i])
    ensures forall i :: 0 <= i < |s| && keep(s[i]) ==> s[i] in Filter(s, keep)
  {
    if s != [] {
      FilterMembers(s[1..], keep);
      assert s == [s[0]] + s[1..];
    }
  }

  /** Filtering keeps a sequence distinct. */
  lemma {:induction false} FilterDistinct<T>(s: seq<T>, keep: T -> bool)
    requires Distinct(s)
    ensures Distinct(Filter(s, keep))
  {
    if s != [] {
      FilterDistinct(s[1..], keep);
      FilterMembers(s[1..], keep);
      var rest := Filter(s[1..], keep);
      if keep(s[0]) {
        assert s[0] !in rest;
        assert Filter(s, keep) == [s[0]] + rest;
      } else {
        assert Filter(s, keep) == rest;
      }
    }
  }

  /** Filtering with a predicate every element satisfies changes nothing. */
  lemma {:induction false} FilterKeepsAll<T>(s: seq<T>, keep: T -> bool)
    requires forall i :: 0 <= i < |s| ==> keep(s[i])
    ensures Filter(s, keep) == s
  {
    if s != [] {
      FilterKeepsAll(s[1..], keep);
      assert [s[0]] + s[1..] == s;
    }
  }

  /** Two filters in a row are one filter by the conjunction. */
  lemma {:induction false} FilterFilter<T>(s: seq<T>, p: T -> bool, q: T -> bool, both: T -> bool)
    requires forall x :: both(x) == (p(x) && q(x))
    ensures Filter(Filter(s, p), q) == Filter(s, both)
  {
    if s != [] {
      FilterFilter(s[1..], p, q, both);
      var rest := Filter(s[1..], p);
      if p(s[0]) {
        var fp := Filter(s, p);
        assert fp == [s[0]] + rest;
        assert fp != [] && fp[0] == s[0] && fp[1..] == rest;
        assert Filter(fp, q) == (if q(s[0]) then [s[0]] else []) + Filter(rest, q);
      } else {
        assert Filter(s, p) == rest;
      }
    }
  }

  /** Filtering distributes over concatenation. */
  lemma {:induction false} FilterAppend<T>(a: seq<T>, b: seq<T>, keep: T -> bool)
    ensures Filter(a + b, keep) == Filter(a, keep) + Filter(b, keep)
  {
    if a == [] {
      assert a + b == b;
    } else {
      var head := if keep(a[0]) then [a[0]] else [];
      assert (a + b)[0] == a[0] && (a + b)[1..] == a[1..] + b;
      assert Filter(a + b, keep) == head + Filter(a[1..] + b, keep);
      FilterAppend(a[1..], b, keep);
    }
  }

  /** Concatenation is associative. */
  lemma AppendAssoc<T>(a: seq<T>, b: seq<T>, c: seq<T>)
    ensures a + (b + c) == (a + b) + c
  {
  }

  /** The elements of `s` in the opposite order. */
  function Reverse<T>(s: seq<T>): (r: seq<T>)
    ensures |r| == |s|
    ensures forall i :: 0 <= i < |s| ==> r[i] == s[|s| - 1 - i]
  {
    if s == [] then [] else Reverse(s[1..]) + [s[0]]
  }

  /** Reversing a concatenation reverses and swaps its parts. */
  lemma ReverseAppend<T>(a: seq<T>, b: seq<T>)
    ensures Reverse(a + b) == Reverse(b) + Reverse(a)
  {
  }

  /** `p` occurs in `s` starting at index `i`. */
  predicate OccursAt(s: string, p: string, i: int) {
    0 <= i && i + |p| <= |s| && s[i..i + |p|] == p
  }
}

=== FILE: content.dfy ===
/** One page template of the site (`Content` in classes.py) and the date
    suffix helper: the preview and title are cut out of the raw HTML by tag
    positions, and the page's type and timestamp come from its meta tags. */
module Content {
  import opened Base
  import opened Decimal

  /** `suffix(d)`: "th" for 11 to 13, otherwise by the last digit. Python's
      `%` floors and Dafny's is Euclidean; for the divisor 10 both agree. */
  function Suffix(d: int): (r: string)
    ensures r in {"st", "nd", "rd", "th"}
    ensures 11 <= d <= 13 ==> r == "th"
  {
    if 11 <= d <= 13 then "th"
    else if d % 10 == 1 then "st"
    else if d % 10 == 2 then "nd"
    else if d % 10 == 3 then "rd"
    else "th"
  }

  /** The English ordinal suffix of a positive number: "th" when the last two
      digits are 11 to 13, otherwise by the last digit. */
  function OrdinalSuffix(n: nat): string {
    if 11 <= n % 100 <= 13 then "th"
    else if n % 10 == 1 then "st"
    else if n % 10 == 2 then "nd"
    else if n % 10 == 3 then "rd"
    else "th"
  }

  /** For every day of a month, and every number below a hundred, the helper
      gives the English suffix. */
  lemma SuffixIsOrdinalBelowHundred(d: int)
    requires 1 <= d < 100
    ensures Suffix(d) == OrdinalSuffix(d)
  {
  }

  /** Past a hundred the helper only looks at the last digit and the range
      11..13: 111 gets "st" where English writes "111th". */
  lemma SuffixDiffersFromOrdinalAt111()
    ensures Suffix(111) == "st" && OrdinalSuffix(111) == "th"
  {
  }

  /** The first index at which `p` occurs in `s` (`str.index`), if any. */
  function Find(s: string, p: string): (r: Option<nat>)
    ensures r.Some? ==> OccursAt(s, p, r.value) && forall j :: 0 <= j < r.value ==> !OccursAt(s, p, j)
    ensures r.None? ==> forall j :: 0 <= j ==> !OccursAt(s, p, j)
  {
    FindFrom(s, p, 0)
  }

  function FindFrom(s: string, p: string, from: nat): (r: Option<nat>)
    requires forall j :: 0 <= j < from ==> !OccursAt(s, p, j)
    ensures r.Some? ==> from <= r.value && OccursAt(s, p, r.value) && forall j :: 0 <= j < r.value ==> !OccursAt(s, p, j)
    ensures r.None? ==> forall j :: 0 <= j ==> !OccursAt(s, p, j)
    decreases |s| - from
  {
    if from + |p| > |s| then None
    else if s[from..from + |p|] == p then Some(from)
    else FindFrom(s, p, from + 1)
  }

  /** The last index at which `p` occurs in `s` (`str.rindex`), if any. */
  function RFind(s: string, p: string): (r: Option<nat>)
    ensures r.Some? ==> OccursAt(s, p, r.value) && forall j :: r.value < j ==> !OccursAt(s, p, j)
    ensures r.None? ==> forall j :: 0 <= j ==> !OccursAt(s, p, j)
  {
    if |p| > |s| then None else RFindFrom(s, p, |s| - |p|)
  }

  function RFindFrom(s: string, p: string, upto: nat): (r: Option<nat>)
    requires upto + |p| <= |s|
    requires forall j :: upto < j ==> !OccursAt(s, p, j)
    ensures r.Some? ==> r.value <= upto && OccursAt(s, p, r.value) && forall j :: r.value < j ==> !OccursAt(s, p, j)
    ensures r.None? ==> forall j :: 0 <= j ==> !OccursAt(s, p, j)
    decreases upto
  {
    if s[upto..upto + |p|] == p then Some(upto)
    else if upto == 0 then None
    else RFindFrom(s, p, upto - 1)
  }

  /** Python's `s[a:b]` for indices within the string: empty when `a > b`. */
  function Slice(s: string, a: nat, b: nat): (r: string)
    requires a <= |s| && b <= |s|
    ensures a <= b ==> r == s[a..b]
    ensures a > b ==> r == ""
  {
    if a <= b then s[a..b] else ""
  }

  /** An occurrence with none before it is what `Find` returns. */
  lemma FindIs(s: string, p: string, i: nat)
    requires OccursAt(s, p, i) && forall j :: 0 <= j < i ==> !OccursAt(s, p, j)
    ensures Find(s, p) == Some(i)
  {
  }

  /** An occurrence with none after it is what `RFind` returns. */
  lemma RFindIs(s: string, p: string, i: nat)
    requires OccursAt(s, p, i) && forall j :: i < j ==> !OccursAt(s, p, j)
    ensures RFind(s, p) == Some(i)
  {
  }

  /** The text between the end of the first `open` and the start of the first
      `close` (`last` off) or of the last `close` (`last` on); `None` when
      either tag is missing. */
  function Between(html: string, open: string, close: string, last: bool): (r: Option<string>)
    ensures r.Some? <==> Find(html, open).Some? && Find(html, close).Some?
  {
    match (Find(html, open), if last then RFind(html, close) else Find(html, close))
    case (Some(i), Some(j)) => Some(Slice(html, i + |open|, j))
    case _ => None
  }

  /** A page: its raw HTML and the name/content pairs of its meta tags. */
  datatype Page = Page(rawHtml: string, metadata: map<string, string>)

  /** The preview: from the end of the first `<preview>` to the start of the
      last `</preview>`. */
  function Preview(p: Page): Option<string> {
    Between(p.rawHtml, "<preview>", "</preview>", true)
  }

  /** The title: from the end of the first `<h1>` to the start of the first `</h1>`. */
  function Title(p: Page): Option<string> {
    Between(p.rawHtml, "<h1>", "</h1>", false)
  }

  /** The page type: the `type` meta tag, if any. */
  function Type(p: Page): Option<string> {
    if "type" in p.metadata then Some(p.metadata["type"]) else None
  }

  /** The URL-quoted title; nothing when the title is missing or empty. */
  function EncodedTitle(p: Page, quote: string -> string): (r: Option<string>)
    ensures r.None? <==> Title(p).None? || Title(p) == Some("")
    ensures r.Some? ==> r.value == quote(Title(p).value)
  {
    match Title(p)
    case Some(t) => if t == "" then None else Some(quote(t))
    case None => None
  }

  /** Reading the `timestamp` meta tag as an integer fails on anything but an
      optionally signed run of digits. */
  datatype ValueError = ValueError(text: string)

  /** `timestamp`: the integer in the `timestamp` meta tag, or 0 without one. */
  function Timestamp(p: Page): (r: Result<int, ValueError>)
    ensures "timestamp" !in p.metadata ==> r == Ok(0)
    ensures "timestamp" in p.metadata ==>
              (r.Ok? <==> ParseDecimal(p.metadata["timestamp"]).Some?)
    ensures "timestamp" in p.metadata && r.Ok? ==> r.value == ParseDecimal(p.metadata["timestamp"]).value
  {
    if "timestamp" !in p.metadata then Ok(0)
    else
      match ParseDecimal(p.metadata["timestamp"])
      case Some(v) => Ok(v)
      case None => Err(ValueError(p.metadata["timestamp"]))
  }

  /** A timestamp written by DecimalString reads back. */
  lemma TimestampReadsBack(p: Page, t: int)
    requires "timestamp" in p.metadata && p.metadata["timestamp"] == DecimalString(t)
    ensures Timestamp(p) == Ok(t)
  {
    DecimalRoundTrip(t);
  }

  /** Cutting a preview out of `pre + <preview> + body + </preview> + post`
      gives back `body`, provided `<preview>` does not occur earlier and
      `</preview>` does not occur later; `body` itself may contain either tag. */
  lemma PreviewExtracts(pre: string, body: string, post: string)
    requires var html := pre + "<preview>" + body + "</preview>" + post;
             && (forall j :: 0 <= j < |pre| ==> !OccursAt(html, "<preview>", j))
             && (forall j :: |pre| + 9 + |body| < j ==> !OccursAt(html, "</preview>", j))
    ensures Preview(Page(pre + "<preview>" + body + "</preview>" + post, map[])) == Some(body)
  {
    var html := pre + "<preview>" + body + "</preview>" + post;
    var i := |pre|;
    var j := |pre| + 9 + |body|;
    assert html[i..i + 9] == "<preview>";
    assert html[j..j + 10] == "</preview>";
    assert OccursAt(html, "<preview>", i);
    assert OccursAt(html, "</preview>", j);
    FindIs(html, "<preview>", i);
    RFindIs(html, "</preview>", j);
    assert html[i + 9..j] == body;
  }

  /** Cutting a title out of `pre + <h1> + t + </h1> + post` gives back `t`,
      provided `<h1>` does not occur earlier and `</h1>` does not occur
      before the end of `t`. */
  lemma TitleExtracts(pre: string, t: string, post: string)
    requires var html := pre + "<h1>" + t + "</h1>" + post;
             && (forall j :: 0 <= j < |pre| ==> !OccursAt(html, "<h1>", j))
             && (forall j :: 0 <= j < |pre| + 4 + |t| ==> !OccursAt(html, "</h1>", j))
    ensures Title(Page(pre + "<h1>" + t + "</h1>" + post, map[])) == Some(t)
  {
    var html := pre + "<h1>" + t + "</h1>" + post;
    var i := |pre|;
    var j := |pre| + 4 + |t|;
    assert html[i..i + 4] == "<h1>";
    assert html[j..j + 5] == "</h1>";
    assert OccursAt(html, "<h1>", i);
    assert OccursAt(html, "</h1>", j);
    FindIs(html, "<h1>", i);
    FindIs(html, "</h1>", j);
    assert html[i + 4..j] == t;
  }

  /** A title whose closing tag comes before its opening tag is cut as the
      empty string, so the page has no encoded title. */
  lemma InvertedTitleIsEmpty(pre: string, mid: string, post: string, quote: string -> string)
    requires var html := pre + "</h1>" + mid + "<h1>" + post;
             && (forall j :: 0 <= j < |pre| ==> !OccursAt(html, "</h1>", j))
             && (forall j :: 0 <= j < |pre| + 5 + |mid| ==> !OccursAt(html, "<h1>", j))
    ensures Title(Page(pre + "</h1>" + mid + "<h1>" + post, map[])) == Some("")
    ensures EncodedTitle(Page(pre + "</h1>" + mid + "<h1>" + post, map[]), quote).None?
  {
    var html := pre + "</h1>" + mid + "<h1>" + post;
    var i := |pre| + 5 + |mid|;
    var j := |pre|;
    assert html[i..i + 4] == "<h1>";
    assert html[j..j + 5] == "</h1>";
    assert OccursAt(html, "<h1>", i);
    assert OccursAt(html, "</h1>", j);
    FindIs(html, "<h1>", i);
    FindIs(html, "</h1>", j);
  }
}

=== FILE: content_organizer.dfy ===
/** The site's index of pages (`ContentOrganizer` in classes.py): every page
    sorted newest first by timestamp, the blog posts among them, and the most
    recent post. The directory listing the pages come from is a parameter. */
module ContentOrganizer {
  import opened Base
  import opened Content

  /** Sorted by `key`, largest first: every element's key is at least its successor's. */
  ghost predicate SortedDesc<T>(s: seq<T>, key: T -> int) {
    forall i :: 0 < i < |s| ==> key(s[i - 1]) >= key(s[i])
  }

  /** In a sequence sorted largest first, the first key is the largest. */
  lemma {:induction false} FirstIsLargest<T>(s: seq<T>, key: T -> int)
    requires SortedDesc(s, key) && |s| > 0
    ensures forall i :: 0 <= i < |s| ==> key(s[i]) <= key(s[0])
  {
    if |s| > 1 {
      FirstIsLargest(s[1..], key);
      forall i | 1 <= i < |s|
        ensures key(s[i]) <= key(s[0])
      {
        assert s[i] == s[1..][i - 1];
      }
    }
  }

  /** Keeps the elements whose key is `k`. */
  function KeyIs<T>(key: T -> int, k: int): T -> bool {
    (x: T) => key(x) == k
  }

  /** Places `x` after every element of `s` whose key is at least its own. */
  function Insert<T>(x: T, s: seq<T>, key: T -> int): (r: seq<T>)
    requires SortedDesc(s, key)
    ensures SortedDesc(r, key)
    ensures multiset(r) == multiset(s) + multiset{x}
    ensures |r| == |s| + 1
    ensures r[0] == x || (|s| > 0 && r[0] == s[0])
  {
    if s == [] then [x]
    else if key(s[0]) >= key(x) then
      var rest := Insert(x, s[1..], key);
      assert key(s[0]) >= key(rest[0]) by {
        if rest[0] != x {
          assert s[1..][0] == s[1];
        }
      }
      ConsSorted(s[0], rest, key);
      assert multiset(s) == multiset{s[0]} + multiset(s[1..]) by {
        assert s == [s[0]] + s[1..];
      }
      [s[0]] + rest
    else
      ConsSorted(x, s, key);
      [x] + s
  }

  /** An element no smaller than the first of a sorted sequence can go in front of it. */
  lemma ConsSorted<T>(h: T, s: seq<T>, key: T -> int)
    requires SortedDesc(s, key) && (s == [] || key(h) >= key(s[0]))
    ensures SortedDesc([h] + s, key)
  {
    forall i | 0 < i < |[h] + s|
      ensures key(([h] + s)[i - 1]) >= key(([h] + s)[i])
    {
      if i > 1 {
        assert ([h] + s)[i - 1] == s[i - 2];
      }
    }
  }

  /** Python's `sorted(s, key=key, reverse=True)`: a stable sort, largest key first. */
  function SortDesc<T>(s: seq<T>, key: T -> int): (r: seq<T>)
    ensures SortedDesc(r, key)
    ensures multiset(r) == multiset(s)
    ensures |r| == |s|
  {
    if s == [] then []
    else
      assert s == s[..|s| - 1] + [s[|s| - 1]];
      Insert(s[|s| - 1], SortDesc(s[..|s| - 1], key), key)
  }

  /** Filtering out everything leaves nothing. */
  lemma {:induction false} FilterNone<T>(s: seq<T>, keep: T -> bool)
    requires forall i :: 0 <= i < |s| ==> !keep(s[i])
    ensures Filter(s, keep) == []
  {
    if s != [] {
      FilterNone(s[1..], keep);
    }
  }

  /** Filtering a one-element sequence keeps the element or drops it. */
  lemma FilterSingle<T>(x: T, keep: T -> bool)
    ensures Filter([x], keep) == if keep(x) then [x] else []
  {
    assert [x][1..] == [];
  }

  /** Inserting `x` adds it at the end of the elements sharing its key and
      leaves the elements of every other key as they were. */
  lemma {:induction false} InsertStable<T>(x: T, s: seq<T>, key: T -> int, k: int)
    requires SortedDesc(s, key)
    ensures Filter(Insert(x, s, key), KeyIs(key, k)) ==
            Filter(s, KeyIs(key, k)) + (if key(x) == k then [x] else [])
  {
    if s == [] {
      FilterSingle(x, KeyIs(key, k));
    } else if key(s[0]) >= key(x) {
      InsertStable(x, s[1..], key, k);
      assert Insert(x, s, key) == [s[0]] + Insert(x, s[1..], key);
      assert s == [s[0]] + s[1..];
      FilterCons(s[0], Insert(x, s[1..], key), s[1..], KeyIs(key, k), if key(x) == k then [x] else []);
    } else {
      InsertInFront(x, s, key, k);
    }
  }

  /** Putting the same element in front of two sequences keeps the relation
      between their filtered forms. */
  lemma FilterCons<T>(h: T, a: seq<T>, b: seq<T>, keep: T -> bool, tail: seq<T>)
    requires Filter(a, keep) == Filter(b, keep) + tail
    ensures Filter([h] + a, keep) == Filter([h] + b, keep) + tail
  {
    FilterAppend([h], a, keep);
    FilterAppend([h], b, keep);
    AppendAssoc(Filter([h], keep), Filter(b, keep), tail);
  }

  /** InsertStable when `x` goes in front: no element of `s` shares its key. */
  lemma InsertInFront<T>(x: T, s: seq<T>, key: T -> int, k: int)
    requires SortedDesc(s, key) && s != [] && key(s[0]) < key(x)
    ensures Filter(Insert(x, s, key), KeyIs(key, k)) ==
            Filter(s, KeyIs(key, k)) + (if key(x) == k then [x] else [])
  {
    var p := KeyIs(key, k);
    assert Insert(x, s, key) == [x] + s;
    FilterAppend([x], s, p);
    FilterSingle(x, p);
    if key(x) == k {
      FirstIsLargest(s, key);
      FilterNone(s, p);
    }
  }

  /** The sort is stable: the elements sharing any one key keep their input order. */
  lemma {:induction false} SortDescStable<T>(s: seq<T>, key: T -> int, k: int)
    ensures Filter(SortDesc(s, key), KeyIs(key, k)) == Filter(s, KeyIs(key, k))
  {
    if s != [] {
      var init := s[..|s| - 1];
      var x := s[|s| - 1];
      SortDescStable(init, key, k);
      assert SortDesc(s, key) == Insert(x, SortDesc(init, key), key);
      InsertStable(x, SortDesc(init, key), key, k);
      assert s == init + [x];
      FilterAppend(init, [x], KeyIs(key, k));
      FilterSingle(x, KeyIs(key, k));
    }
  }

  /** Filtering a sequence sorted largest first keeps it sorted. */
  lemma {:induction false} FilterSorted<T>(s: seq<T>, keep: T -> bool, key: T -> int)
    requires SortedDesc(s, key)
    ensures SortedDesc(Filter(s, keep), key)
  {
    if s != [] {
      var rest := Filter(s[1..], keep);
      FilterSorted(s[1..], keep, key);
      if keep(s[0]) {
        if rest != [] {
          FirstIsLargest(s, key);
          FilterMembers(s[1..], keep);
          assert rest[0] in Filter(s[1..], keep);
          assert rest[0] in s[1..] && keep(rest[0]);
          var k :| 0 <= k < |s[1..]| && s[1..][k] == rest[0];
          assert s[k + 1] == rest[0];
        }
        assert Filter(s, keep) == [s[0]] + rest;
        ConsSorted(s[0], rest, key);
      } else {
        assert Filter(s, keep) == [] + rest;
        assert [] + rest == rest;
      }
    }
  }

  /** A page with a timestamp that reads as an integer. */
  predicate Dated(p: Page) {
    Timestamp(p).Ok?
  }

  /** The sort key: the page's timestamp (0 for pages that cannot be read,
      which the sort never meets). */
  function Key(p: Page): int {
    match Timestamp(p)
    case Ok(t) => t
    case Err(_) => 0
  }

  /** Why `refresh` raises: a timestamp that does not read as an integer
      (`ValueError`), or a blog post without a title, whose missing title has
      no `lower()` (`AttributeError`). */
  datatype RefreshError = Unreadable(cause: ValueError) | UntitledPost

  /** A page the post lookup can index: not a blog post, or one with a title. */
  predicate Titled(p: Page) {
    IsPost(p) ==> Title(p).Some?
  }

  /** `refresh`: the listed pages sorted by timestamp, newest first, pages
      with equal timestamps in listing order. The sort reads every key first,
      so one unreadable timestamp makes the whole refresh raise; after the
      sort, building the post lookup raises on an untitled post. */
  function Refresh(listing: seq<Page>): (r: Result<seq<Page>, RefreshError>)
    ensures r.Ok? <==>
              && (forall i :: 0 <= i < |listing| ==> Dated(listing[i]))
              && (forall i :: 0 <= i < |listing| ==> Titled(listing[i]))
    ensures r.Err? && r.error.Unreadable? <==> exists i :: 0 <= i < |listing| && !Dated(listing[i])
    ensures r.Ok? ==> SortedDesc(r.value, Key) && multiset(r.value) == multiset(listing)
  {
    match FirstUndated(listing)
    case Some(e) => Err(Unreadable(e))
    case None =>
      if forall i :: 0 <= i < |listing| ==> Titled(listing[i]) then Ok(SortDesc(listing, Key))
      else Err(UntitledPost)
  }

  /** The error of the first page whose timestamp cannot be read, if any. */
  function FirstUndated(listing: seq<Page>): (r: Option<ValueError>)
    ensures r.None? <==> forall i :: 0 <= i < |listing| ==> Dated(listing[i])
  {
    if listing == [] then None
    else if !Dated(listing[0]) then Some(Timestamp(listing[0]).error)
    else
      var r := FirstUndated(listing[1..]);
      assert forall i :: 1 <= i < |listing| ==> listing[i] == listing[1..][i - 1];
      r
  }

  /** Pages with the same timestamp appear in the refreshed index in listing order. */
  lemma RefreshStable(listing: seq<Page>, t: int)
    requires Refresh(listing).Ok?
    ensures Filter(Refresh(listing).value, KeyIs(Key, t)) == Filter(listing, KeyIs(Key, t))
  {
    SortDescStable(listing, Key, t);
  }

  /** A blog post: a page whose `type` meta tag is `blog_post`. */
  predicate IsPost(p: Page) {
    Type(p) == Some("blog_post")
  }

  /** The key `post_lookup` files a post under: its title, lower-cased.
      Only ever taken of titled posts; `lower` is Python's `str.lower`. */
  function TitleKey(p: Page, lower: string -> string): string {
    lower(Title(p).GetOr(""))
  }

  /** `post_lookup`: each post of the index under its lower-cased title. When
      several posts share one, the dictionary keeps the last of them in index
      order, as PostLookupKeepsLast states. */
  function PostLookup(content: seq<Page>, lower: string -> string): (m: map<string, Page>)
    requires forall i :: 0 <= i < |content| ==> Titled(content[i])
    ensures forall k :: k in m ==> IsPost(m[k]) && m[k] in content
  {
    if content == [] then map[]
    else
      var init := content[..|content| - 1];
      var p := content[|content| - 1];
      assert forall i :: 0 <= i < |init| ==> init[i] == content[i];
      var m := PostLookup(init, lower);
      if IsPost(p) then m[TitleKey(p, lower) := p] else m
  }

  /** `p` is the post at index `i` of `content`, files under `k`, and no later
      post files under `k`. */
  ghost predicate LastPostAt(content: seq<Page>, lower: string -> string, k: string, p: Page, i: int) {
    && 0 <= i < |content| && content[i] == p && IsPost(p) && TitleKey(p, lower) == k
    && forall j :: i < j < |content| && IsPost(content[j]) ==> TitleKey(content[j], lower) != k
  }

  /** `p` is the last post of `content` filed under `k`. */
  ghost predicate LastPostUnder(content: seq<Page>, lower: string -> string, k: string, p: Page) {
    exists i :: LastPostAt(content, lower, k, p, i)
  }

  /** The post lookup holds every post's lower-cased title, and under each
      key the last post in index order carrying it. */
  lemma {:induction false} PostLookupKeepsLast(content: seq<Page>, lower: string -> string)
    requires forall i :: 0 <= i < |content| ==> Titled(content[i])
    ensures var m := PostLookup(content, lower);
            && (forall i :: 0 <= i < |content| && IsPost(content[i]) ==> TitleKey(content[i], lower) in m)
            && (forall k :: k in m ==> LastPostUnder(content, lower, k, m[k]))
  {
    if content != [] {
      var n := |content| - 1;
      var init := content[..n];
      assert forall i :: 0 <= i < |init| ==> init[i] == content[i];
      PostLookupKeepsLast(init, lower);
      var m0 := PostLookup(init, lower);
      var m := PostLookup(content, lower);
      forall k | k in m
        ensures LastPostUnder(content, lower, k, m[k])
      {
        if IsPost(content[n]) && k == TitleKey(content[n], lower) {
          assert LastPostAt(content, lower, k, m[k], n);
        } else {
          var i :| LastPostAt(init, lower, k, m0[k], i);
          LastPostExtends(init, content, lower, k, m0[k], i);
        }
      }
    }
  }

  /** A last post of `init` stays last when one more page follows that is
      not a post filed under the same key. */
  lemma LastPostExtends(init: seq<Page>, content: seq<Page>, lower: string -> string, k: string, p: Page, i: int)
    requires |content| == |init| + 1 && init == content[..|init|]
    requires LastPostAt(init, lower, k, p, i)
    requires IsPost(content[|init|]) ==> TitleKey(content[|init|], lower) != k
    ensures LastPostAt(content, lower, k, p, i)
  {
    assert forall j :: 0 <= j < |init| ==> init[j] == content[j];
  }

  /** Every page of a refreshed index can be filed in the post lookup, so
      the lookup `refresh` builds next is defined. */
  lemma RefreshedIsTitled(listing: seq<Page>)
    requires Refresh(listing).Ok?
    ensures var content := Refresh(listing).value;
            forall i :: 0 <= i < |content| ==> Titled(content[i])
  {
    var content := Refresh(listing).value;
    forall i | 0 <= i < |content|
      ensures Titled(content[i])
    {
      assert content[i] in multiset(listing);
    }
  }

  /** `posts`: the blog posts of the index, in index order. */
  function Posts(content: seq<Page>): (r: seq<Page>)
    ensures forall i :: 0 <= i < |r| ==> IsPost(r[i]) && r[i] in content
    ensures forall i :: 0 <= i < |content| && IsPost(content[i]) ==> content[i] in r
  {
    FilterMembers(content, IsPost);
    Filter(content, IsPost)
  }

  /** The posts of a single page: the page itself when it is a post. */
  lemma PostsSingle(p: Page)
    ensures Posts([p]) == if IsPost(p) then [p] else []
  {
    FilterSingle(p, IsPost);
  }

  /** The posts of two listings one after the other are the posts of the
      first followed by the posts of the second, so `posts` keeps index order. */
  lemma PostsAppend(a: seq<Page>, b: seq<Page>)
    ensures Posts(a + b) == Posts(a) + Posts(b)
  {
    FilterAppend(a, b, IsPost);
  }

  /** `most_recent_post`: the first post of the index, if there is one. */
  function MostRecentPost(content: seq<Page>): (r: Option<Page>)
    ensures r.Some? <==> exists i :: 0 <= i < |content| && IsPost(content[i])
    ensures r.Some? ==> exists i :: 0 <= i < |content| && content[i] == r.value && IsPost(content[i]) &&
                          forall j :: 0 <= j < i ==> !IsPost(content[j])
  {
    var posts := Posts(content);
    if |posts| > 0 then
      FilterFirst(content, IsPost);
      Some(posts[0])
    else None
  }

  /** The posts of a refreshed index are exactly the posts of the listing. */
  lemma RefreshedPostsAreListed(listing: seq<Page>)
    requires Refresh(listing).Ok?
    ensures forall p :: p in Posts(Refresh(listing).value) <==> p in listing && IsPost(p)
  {
    var content := Refresh(listing).value;
    var posts := Posts(content);
    FilterMembers(content, IsPost);
    forall p
      ensures p in posts <==> p in listing && IsPost(p)
    {
      if p in posts {
        var i :| 0 <= i < |posts| && posts[i] == p;
        assert p in multiset(content);
      }
      if p in listing && IsPost(p) {
        assert p in multiset(content);
        var j :| 0 <= j < |content| && content[j] == p;
      }
    }
  }

  /** A refreshed index has a most recent post exactly when the listing holds a post. */
  lemma MostRecentPostExists(listing: seq<Page>)
    requires Refresh(listing).Ok?
    ensures MostRecentPost(Refresh(listing).value).Some? <==>
            exists i :: 0 <= i < |listing| && IsPost(listing[i])
  {
    RefreshedPostsAreListed(listing);
    var posts := Posts(Refresh(listing).value);
    if |posts| > 0 {
      assert posts[0] in posts;
      var i :| 0 <= i < |listing| && listing[i] == posts[0];
      assert IsPost(listing[i]);
    } else {
      assert forall i :: 0 <= i < |listing| && IsPost(listing[i]) ==> listing[i] in posts;
    }
  }

  /** The most recent post of a refreshed index has the largest timestamp of
      all posts in the listing. */
  lemma MostRecentPostIsLatest(listing: seq<Page>)
    requires Refresh(listing).Ok?
    requires MostRecentPost(Refresh(listing).value).Some?
    ensures forall i :: 0 <= i < |listing| && IsPost(listing[i]) ==>
              Key(listing[i]) <= Key(MostRecentPost(Refresh(listing).value).value)
  {
    var content := Refresh(listing).value;
    var posts := Posts(content);
    RefreshedPostsAreListed(listing);
    FilterSorted(content, IsPost, Key);
    FirstIsLargest(posts, Key);
    forall i | 0 <= i < |listing| && IsPost(listing[i])
      ensures Key(listing[i]) <= Key(posts[0])
    {
      assert listing[i] in posts;
      var k :| 0 <= k < |posts| && posts[k] == listing[i];
    }
  }

  /** Among the listing's posts with the top timestamp, the most recent post
      is the first in listing order. */
  lemma MostRecentPostFirstOfTies(listing: seq<Page>)
    requires Refresh(listing).Ok?
    requires MostRecentPost(Refresh(listing).value).Some?
    ensures var top := MostRecentPost(Refresh(listing).value).value;
            var ties := Filter(Posts(listing), KeyIs(Key, Key(top)));
            ties != [] && ties[0] == top
  {
    var content := Refresh(listing).value;
    var posts := Posts(content);
    var top := posts[0];
    var t := Key(top);
    PostsWithTopKey(listing, content, t);
    assert posts == [top] + posts[1..];
    FilterAppend([top], posts[1..], KeyIs(Key, t));
    FilterSingle(top, KeyIs(Key, t));
  }

  /** The posts with timestamp `t` come in the same order in the refreshed
      index as in the listing. */
  lemma PostsWithTopKey(listing: seq<Page>, content: seq<Page>, t: int)
    requires Refresh(listing).Ok? && content == Refresh(listing).value
    ensures Filter(Posts(content), KeyIs(Key, t)) == Filter(Posts(listing), KeyIs(Key, t))
  {
    RefreshStable(listing, t);
    FilterFilter(content, IsPost, KeyIs(Key, t), BothPostAndKey(t));
    FilterFilter(listing, IsPost, KeyIs(Key, t), BothPostAndKey(t));
    FilterFilter(content, KeyIs(Key, t), IsPost, BothPostAndKey(t));
    FilterFilter(listing, KeyIs(Key, t), IsPost, BothPostAndKey(t));
  }

  /** Keeps the posts whose timestamp is `t`. */
  function BothPostAndKey(t: int): Page -> bool {
    (p: Page) => IsPost(p) && Key(p) == t
  }
}

=== FILE: decimal.dfy ===
/** Decimal rendering and reading of integers: SQL `cast(... as string)` and
    Python `int(...)` restricted to plain digit strings. */
module Decimal {
  import opened Base

  /** The decimal digit for `d`. */
  function DigitChar(d: nat): (c: char)
    requires d < 10
    ensures '0' <= c <= '9'
  {
    ('0' as int + d) as char
  }

  /** The value of a decimal digit character. */
  function DigitValue(c: char): nat
    requires '0' <= c <= '9'
  {
    (c as int - '0' as int) as nat
  }

  /** Every character of `s` is a decimal digit. */
  predicate AllDigits(s: string) {
    forall i :: 0 <= i < |s| ==> '0' <= s[i] <= '9'
  }

  /** Decimal rendering of a natural number, most significant digit first. */
  function Digits(n: nat): (s: string)
    ensures |s| >= 1 && AllDigits(s)
  {
    if n < 10 then [DigitChar(n)] else Digits(n / 10) + [DigitChar(n % 10)]
  }

  /** Reads a non-empty string of decimal digits. */
  function ParseDigits(s: string): nat
    requires |s| >= 1 && AllDigits(s)
  {
    if |s| == 1 then DigitValue(s[0])
    else 10 * ParseDigits(s[..|s| - 1]) + DigitValue(s[|s| - 1])
  }

  /** SQL `cast(object_id as string)`: a leading `-` for negatives, then digits. */
  function DecimalString(n: int): string {
    if n < 0 then "-" + Digits(-n) else Digits(n)
  }

  /** Reads back what DecimalString writes. */
  function ParseDecimal(s: string): Option<int> {
    if |s| >= 2 && s[0] == '-' && AllDigits(s[1..]) then
      Some(-(ParseDigits(s[1..]) as int))
    else if |s| >= 1 && s[0] != '-' && AllDigits(s) then
      Some(ParseDigits(s))
    else None
  }

  /** The digits of `n` read back as `n`. */
  lemma {:induction false} DigitsRoundTrip(n: nat)
    ensures ParseDigits(Digits(n)) == n
  {
    if n >= 10 {
      DigitsRoundTrip(n / 10);
      var s := Digits(n);
      var last := DigitChar(n % 10);
      assert s == Digits(n / 10) + [last];
      assert s[..|s| - 1] == Digits(n / 10) && s[|s| - 1] == last;
      assert DigitValue(last) == n % 10;
      assert ParseDigits(s) == 10 * (n / 10) + n % 10;
    }
  }

  /** Distinct object ids render to distinct `id` strings: the rendering reads back. */
  lemma DecimalRoundTrip(n: int)
    ensures ParseDecimal(DecimalString(n)) == Some(n)
  {
    if n < 0 {
      NegativeRoundTrip(n);
    } else {
      DigitsRoundTrip(n);
      assert Digits(n)[0] != '-';
    }
  }

  lemma NegativeRoundTrip(n: int)
    requires n < 0
    ensures ParseDecimal(DecimalString(n)) == Some(n)
  {
    var d := Digits(-n);
    var s := "-" + d;
    DigitsRoundTrip(-n);
    assert s[1..] == d && s[0] == '-';
    assert DecimalString(n) == s;
  }
}

=== FILE: expiring_dict.dfy ===
/** The single cache of the older art API (expiringdict's ExpiringDict): an
    insertion-ordered dictionary whose entries remember when they were
    written. An entry at least `maxAge` old reads as absent, and the read that
    finds it so deletes it. A write into a full dictionary first makes room:
    it deletes the written key if that key is live, and otherwise drops the
    oldest entry. */
module ExpiringDict {
  import opened Base
  import OrderedMap
  type OMap<K, V> = OrderedMap.OMap<K, V>

  /** A stored value and the instant it was written. */
  datatype Entry<V> = Entry(value: V, setAt: real)

  /** `entries` orders the keys oldest-inserted first. */
  datatype Dict<K, V> = Dict(maxLen: nat, maxAge: real, entries: OMap<K, Entry<V>>)

  /** The library asserts `max_len >= 1` and `max_age_seconds >= 0` on construction. */
  ghost predicate Valid<K(!new), V>(d: Dict<K, V>) {
    && d.maxLen >= 1
    && d.maxAge >= 0.0
    && OrderedMap.Valid(d.entries)
    && |d.entries.order| <= d.maxLen
  }

  function Empty<K(!new), V>(maxLen: nat, maxAge: real): (d: Dict<K, V>)
    requires maxLen >= 1 && maxAge >= 0.0
    ensures Valid(d) && d.entries.data == map[] && d.maxLen == maxLen && d.maxAge == maxAge
  {
    Dict(maxLen, maxAge, OrderedMap.Empty())
  }

  /** `k` is stored and younger than `maxAge` at `now`. */
  predicate Live<K, V>(d: Dict<K, V>, now: real, k: K) {
    k in d.entries.data && now - d.entries.data[k].setAt < d.maxAge
  }

  /** The membership test `k in d` at `now`; a stale entry it meets is deleted. */
  function Contains<K(!new), V>(d: Dict<K, V>, now: real, k: K): (r: (Dict<K, V>, bool))
    requires Valid(d)
    ensures Valid(r.0) && r.0.maxLen == d.maxLen && r.0.maxAge == d.maxAge
    ensures r.1 <==> Live(d, now, k)
    ensures r.1 ==> r.0 == d
    ensures !r.1 ==> r.0.entries.data == d.entries.data - {k}
  {
    if Live(d, now, k) then (d, true)
    else if k in d.entries.data then (d.(entries := OrderedMap.Delete(d.entries, k)), false)
    else
      assert d.entries.data - {k} == d.entries.data;
      (d, false)
  }

  /** The read `d.get(k)` at `now`: the value if live; a stale entry it meets is deleted. */
  function Get<K(!new), V>(d: Dict<K, V>, now: real, k: K): (r: (Dict<K, V>, Option<V>))
    requires Valid(d)
    ensures Valid(r.0) && r.0.maxLen == d.maxLen && r.0.maxAge == d.maxAge
    ensures r.1.Some? <==> Live(d, now, k)
    ensures r.1.Some? ==> r.1.value == d.entries.data[k].value && r.0 == d
    ensures r.1.None? ==> r.0.entries.data == d.entries.data - {k}
  {
    var (d', live) := Contains(d, now, k);
    if live then (d, Some(d.entries.data[k].value)) else (d', None)
  }

  /** The write `d[k] = v` at `now`. The written key holds `v` stamped `now`;
      no other key changes value; below capacity, or when `k` is live, no
      other key is lost; at capacity otherwise, a stale entry of `k` and the
      oldest remaining entry are dropped. */
  function Put<K(!new), V>(d: Dict<K, V>, now: real, k: K, v: V): (r: Dict<K, V>)
    requires Valid(d)
    ensures Valid(r) && r.maxLen == d.maxLen && r.maxAge == d.maxAge
    ensures k in r.entries.data && r.entries.data[k] == Entry(v, now)
    ensures d.maxAge > 0.0 ==> Live(r, now, k)
    ensures forall k' :: k' in r.entries.data && k' != k ==>
              k' in d.entries.data && r.entries.data[k'] == d.entries.data[k']
    ensures |d.entries.order| < d.maxLen || Live(d, now, k) ==>
              forall k' :: k' in d.entries.data ==> k' in r.entries.data
    ensures |d.entries.order| < d.maxLen ==>
              r.entries.order == if k in d.entries.data then d.entries.order else d.entries.order + [k]
    ensures |d.entries.order| == d.maxLen && Live(d, now, k) ==>
              r.entries.order == Without(d.entries.order, k) + [k]
    ensures |d.entries.order| == d.maxLen && !Live(d, now, k) && |Without(d.entries.order, k)| > 0 ==>
              var oldest := Without(d.entries.order, k)[0];
              && oldest !in r.entries.data
              && r.entries.order == Without(d.entries.order, k)[1..] + [k]
              && forall k' :: k' in d.entries.data && k' != k && k' != oldest ==> k' in r.entries.data
  {
    var room :=
      if |d.entries.order| == d.maxLen then
        var (d1, live) := Contains(d, now, k);
        if live then OrderedMap.Delete(d1.entries, k)
        else if |d1.entries.order| > 0 then OrderedMap.DropOldest(d1.entries)
        else d1.entries
      else d.entries;
    Dict(d.maxLen, d.maxAge, OrderedMap.Assign(room, k, Entry(v, now)))
  }
}

=== FILE: fifo_cache.dfy ===
/** A size-bounded cache that evicts in insertion order, the policy the art
    accessor uses for upstream object records (cachetools' FIFOCache): reading
    never reorders, writing a new key into a full cache drops the oldest key. */
module FifoCache {
  import opened Base
  import OrderedMap
  type OMap<K, V> = OrderedMap.OMap<K, V>

  /** `entries` orders the keys oldest-inserted first. */
  datatype Cache<K, V> = Cache(capacity: nat, entries: OMap<K, V>)

  ghost predicate Valid<K(!new), V>(c: Cache<K, V>) {
    && c.capacity >= 1
    && OrderedMap.Valid(c.entries)
    && |c.entries.order| <= c.capacity
  }

  /** A cache holding nothing. */
  function Empty<K(!new), V>(capacity: nat): (c: Cache<K, V>)
    requires capacity >= 1
    ensures Valid(c)
    ensures c.entries.data == map[] && c.capacity == capacity
  {
    Cache(capacity, OrderedMap.Empty())
  }

  /** The value stored under `k`, if any; reading never changes the cache. */
  function Get<K, V>(c: Cache<K, V>, k: K): Option<V> {
    if k in c.entries.data then Some(c.entries.data[k]) else None
  }

  /** Stores `v` under `k`. An existing key is overwritten and becomes the
      newest; a new key entering a full cache evicts the oldest key and no other. */
  function Put<K(!new), V>(c: Cache<K, V>, k: K, v: V): (r: Cache<K, V>)
    requires Valid(c)
    ensures Valid(r) && r.capacity == c.capacity
    ensures Get(r, k) == Some(v)
    ensures r.entries.order == OrderAfterPut(c.entries.order, c.capacity, k)
    ensures k in c.entries.data || |c.entries.order| < c.capacity ==>
              r.entries.data == c.entries.data[k := v]
    ensures k !in c.entries.data && |c.entries.order| == c.capacity ==>
              && c.entries.order[0] != k
              && r.entries.data == (c.entries.data - {c.entries.order[0]})[k := v]
  {
    if k in c.entries.data || |c.entries.order| < c.capacity then
      Cache(c.capacity, OrderedMap.Touch(c.entries, k, v))
    else
      var dropped := OrderedMap.DropOldest(c.entries);
      Cache(c.capacity, OrderedMap.Touch(dropped, k, v))
  }

  /** The key order after writing `k`: the key moves to (or enters at) the
      newest end, and a new key entering a full cache pushes out the oldest. */
  function OrderAfterPut<K(==)>(order: seq<K>, capacity: nat, k: K): seq<K>
    requires capacity >= 1
  {
    if k in order then Without(order, k) + [k]
    else if |order| < capacity then order + [k]
    else order[1..] + [k]
  }

  /** Inserts `ks` one after the other, left to right. */
  function PutAll<K(!new), V>(c: Cache<K, V>, ks: seq<K>, v: V): (r: Cache<K, V>)
    requires Valid(c)
    ensures Valid(r) && r.capacity == c.capacity
  {
    if ks == [] then c else Put(PutAll(c, ks[..|ks| - 1], v), ks[|ks| - 1], v)
  }

  /** The key order after writing `ks` one after the other. */
  function OrderAfterPuts<K(==)>(order: seq<K>, capacity: nat, ks: seq<K>): seq<K>
    requires capacity >= 1
  {
    if ks == [] then order
    else OrderAfterPut(OrderAfterPuts(order, capacity, ks[..|ks| - 1]), capacity, ks[|ks| - 1])
  }

  /** Writing a sequence of keys moves the key order as the pure step function says. */
  lemma {:induction false} PutAllOrder<K(!new), V>(c: Cache<K, V>, ks: seq<K>, v: V)
    requires Valid(c)
    ensures PutAll(c, ks, v).entries.order == OrderAfterPuts(c.entries.order, c.capacity, ks)
  {
    if ks != [] {
      PutAllOrder(c, ks[..|ks| - 1], v);
    }
  }

  /** The newest `capacity` elements of `ks`, oldest first. */
  function Window<K>(ks: seq<K>, capacity: nat): seq<K> {
    ks[if |ks| <= capacity then 0 else |ks| - capacity..]
  }

  /** Writing distinct keys from an empty order keeps exactly the newest `capacity`. */
  lemma {:induction false} OrderAfterDistinctPuts<K>(capacity: nat, ks: seq<K>)
    requires capacity >= 1 && Distinct(ks)
    ensures OrderAfterPuts([], capacity, ks) == Window(ks, capacity)
  {
    if ks != [] {
      var n := |ks|;
      var init := ks[..n - 1];
      DistinctPrefix(ks);
      OrderAfterDistinctPuts(capacity, init);
      var lo := if n - 1 <= capacity then 0 else n - 1 - capacity;
      assert Window(init, capacity) == ks[lo..n - 1];
      LastNotEarlier(ks, lo);
      WindowAdvances(ks, capacity);
    }
  }

  /** Inserting distinct keys into an empty cache of capacity N leaves exactly
      the last N of them, oldest first; in particular N+1 insertions evict the
      first-inserted key and only that one. */
  lemma PutAllDistinctKeepsNewest<K(!new), V>(capacity: nat, ks: seq<K>, v: V)
    requires capacity >= 1 && Distinct(ks)
    ensures PutAll(Empty(capacity), ks, v).entries.order == Window(ks, capacity)
  {
    PutAllOrder(Empty<K, V>(capacity), ks, v);
    OrderAfterDistinctPuts(capacity, ks);
  }

  /** In a distinct sequence the last element is absent from any window before it. */
  lemma LastNotEarlier<K>(ks: seq<K>, lo: nat)
    requires Distinct(ks) && lo < |ks|
    ensures ks[|ks| - 1] !in ks[lo..|ks| - 1]
  {
    var w := ks[lo..|ks| - 1];
    forall i | 0 <= i < |w| ensures w[i] != ks[|ks| - 1] {
      assert w[i] == ks[lo + i];
    }
  }

  /** Dropping the last element keeps a sequence distinct. */
  lemma DistinctPrefix<K>(ks: seq<K>)
    requires Distinct(ks) && |ks| >= 1
    ensures Distinct(ks[..|ks| - 1])
  {
  }

  /** Sliding the window of the newest `capacity` keys by one key. */
  lemma WindowAdvances<K>(ks: seq<K>, capacity: nat)
    requires capacity >= 1 && |ks| >= 1
    ensures var w := Window(ks[..|ks| - 1], capacity);
            (if |w| < capacity then w else w[1..]) + [ks[|ks| - 1]] == Window(ks, capacity)
  {
    var n := |ks|;
    if n - 1 < capacity {
      SuffixSnoc(ks, 0);
    } else {
      SuffixSnoc(ks, n - capacity);
    }
  }

  /** The capacity-N, N+1-insertions instance: the first key is gone and every
      later key is still cached. */
  lemma OverflowEvictsFirst<K(!new), V>(capacity: nat, ks: seq<K>, v: V)
    requires capacity >= 1 && Distinct(ks) && |ks| == capacity + 1
    ensures Get(PutAll(Empty(capacity), ks, v), ks[0]) == None
    ensures forall i :: 1 <= i < |ks| ==> Get(PutAll(Empty(capacity), ks, v), ks[i]).Some?
  {
    PutAllDistinctKeepsNewest(capacity, ks, v);
    var r := PutAll(Empty<K, V>(capacity), ks, v);
    assert r.entries.order == ks[1..];
    forall i | 1 <= i < |ks| ensures ks[i] in r.entries.data {
      assert ks[i] == r.entries.order[i - 1];
    }
  }
}

=== FILE: fine_art.dfy ===
/** The request `FineArt.request_random_art` of static/base_scripts.js sends:
    the art type from the figure's `data-art_type` attribute goes into the
    query string as written, without URL encoding. */
module FineArt {
  import opened Base

  const Path: string := "/random_art"
  const Query: string := "?art_type="

  /** A JavaScript string is falsy when missing (`undefined`) or empty. */
  predicate Truthy(artType: Option<string>) {
    artType.Some? && artType.value != ""
  }

  /** The request URL for the figure's art type. */
  function RandomArtUrl(artType: Option<string>): (url: string)
    ensures !Truthy(artType) ==> url == Path
    ensures Truthy(artType) ==> url == Path + Query + artType.value
    ensures Path <= url
  {
    if Truthy(artType) then Path + Query + artType.value else Path
  }

  /** The art type a `/random_art` URL asks for, read back from the query
      string as written; nothing for the bare path or another URL. */
  function ArtTypeOf(url: string): (r: Option<string>)
    ensures r.Some? ==> Path + Query + r.value == url
  {
    var prefix := Path + Query;
    if |prefix| <= |url| && url[..|prefix|] == prefix then
      assert url == prefix + url[|prefix|..];
      Some(url[|prefix|..])
    else None
  }

  /** The art type reads back from the URL unchanged, and a falsy art type
      gives the bare path. */
  lemma UrlRoundTrip(artType: Option<string>)
    ensures Truthy(artType) ==> ArtTypeOf(RandomArtUrl(artType)) == artType
    ensures !Truthy(artType) ==> ArtTypeOf(RandomArtUrl(artType)) == None
  {
    var url := RandomArtUrl(artType);
    var prefix := Path + Query;
    if Truthy(artType) {
      assert url == prefix + artType.value;
      assert url[..|prefix|] == prefix;
      assert url[|prefix|..] == artType.value;
    }
  }

  /** Different truthy art types give different URLs. */
  lemma UrlInjective(a: Option<string>, b: Option<string>)
    requires Truthy(a) && Truthy(b) && RandomArtUrl(a) == RandomArtUrl(b)
    ensures a == b
  {
    UrlRoundTrip(a);
    UrlRoundTrip(b);
  }
}

=== FILE: met_art_accessor.dfy ===
/** The Met art sampler (`MetArtAccessor` of art_accessors.py) as a state
    machine over three parts: a FIFO cache of upstream object records, a TTL
    cache of truncated search results keyed by the normalised query, and the
    `met_objects_raw` table of (search term, object id) rows. The clock, the
    random choice of a row and the upstream service are parameters. */
module MetArtAccessor {
  import opened Base
  import FifoCache
  import TtlCache
  import opened MetObject

  /** One row of the `met_objects_raw` table. */
  datatype Row = Row(term: string, objectId: int)

  /** What the accessor calls out to: the upstream search (the `objectIDs` of
      the reply, `[]` when the reply has none, `None` when it is JSON null),
      the upstream object fetch,
      and the two URL-quoting functions (`quote_plus` normalises search terms,
      `quote` is applied to text columns of the view). */
  datatype Upstream = Upstream(
    search: string -> Option<seq<int>>,
    fetch: int -> MetJson,
    quotePlus: string -> string,
    quote: string -> string)

  /** `table` is `None` until the first insert creates `met_objects_raw`. */
  datatype Accessor = Accessor(
    objectCache: FifoCache.Cache<int, MetJson>,
    searchCache: TtlCache.Cache<string, seq<int>>,
    table: Option<seq<Row>>)

  /** What the sampler raises: the database's `CatalogException` when the
      table has not been created yet, and the `TypeError` of turning a null
      `objectIDs` into a tuple. */
  datatype Failure = MissingTable | NullSearchResult

  /** The constructor defaults: 10000 cached objects, 128 cached searches,
      search results kept for 60 seconds. */
  const DefaultObjectCacheSize: nat := 10000
  const DefaultSearchCacheSize: nat := 128
  const DefaultSearchTtl: real := 60.0

  /** `get_random_art` asks for up to ten retries for an object with an image. */
  const DefaultRetries: int := 10

  /** Search results keep their leading tenth: `take_top_fraction=.1`. */
  const TopNumerator: nat := 1
  const TopDenominator: nat := 10

  /** The state invariant: both caches are well formed, and every cached
      object record is what the upstream returns for its id (records are
      treated as immutable upstream). */
  ghost predicate Consistent(s: Accessor, up: Upstream) {
    && FifoCache.Valid(s.objectCache)
    && TtlCache.Valid(s.searchCache)
    && Agrees(s.objectCache, up.fetch)
  }

  /** Every cached object record is the upstream's record for its id. */
  ghost predicate Agrees(cache: FifoCache.Cache<int, MetJson>, fetch: int -> MetJson) {
    forall id :: id in cache.entries.data ==> cache.entries.data[id] == fetch(id)
  }

  /** A freshly constructed accessor: empty caches, no table. */
  function New(objectCacheSize: nat, searchCacheSize: nat, ttl: real): (s: Accessor)
    requires objectCacheSize >= 1 && searchCacheSize >= 1 && ttl > 0.0
    ensures forall up :: Consistent(s, up)
    ensures s.table.None? && s.objectCache.entries.data == map[]
    ensures s.searchCache.entries.data == map[]
  {
    Accessor(FifoCache.Empty(objectCacheSize), TtlCache.Empty(searchCacheSize, ttl), None)
  }

  /** The rows of the table; a table not yet created reads as no rows where a
      statement tolerates it. */
  function Rows(s: Accessor): seq<Row> {
    s.table.GetOr([])
  }

  /** The object ids of the rows for `term`, in table order. */
  function IdsFor(rows: seq<Row>, term: string): (ids: seq<int>)
    ensures |ids| <= |rows|
    ensures forall x :: x in ids <==> Row(term, x) in rows
  {
    if rows == [] then []
    else
      var rest := IdsFor(rows[1..], term);
      assert forall x :: Row(term, x) in rows <==> Row(term, x) == rows[0] || Row(term, x) in rows[1..];
      (if rows[0].term == term then [rows[0].objectId] else []) + rest
  }

  /** A table without rows for `term` yields no ids for it. */
  lemma {:induction false} NoRowsNoIds(rows: seq<Row>, term: string)
    requires forall i :: 0 <= i < |rows| ==> rows[i].term != term
    ensures IdsFor(rows, term) == []
  {
    if rows != [] {
      NoRowsNoIds(rows[1..], term);
    }
  }

  /** One row per id, all under `term`, in the order of `ids`. */
  function RowsOf(term: string, ids: seq<int>): (rows: seq<Row>)
    ensures |rows| == |ids|
    ensures forall i :: 0 <= i < |ids| ==> rows[i] == Row(term, ids[i])
  {
    seq(|ids|, i requires 0 <= i < |ids| => Row(term, ids[i]))
  }

  /** Some row carries object id `id`, under any term. */
  predicate HasRowFor(rows: seq<Row>, id: int) {
    exists i :: 0 <= i < |rows| && rows[i].objectId == id
  }

  /** `_load_met_object`: the cached record of `id`, fetching and caching it
      first when absent. A cached record is returned as is, with no fetch. */
  function LoadMetObject(s: Accessor, up: Upstream, id: int): (r: (Accessor, MetJson))
    requires Consistent(s, up)
    ensures Consistent(r.0, up)
    ensures r.1 == up.fetch(id)
    ensures r.0.searchCache == s.searchCache && r.0.table == s.table
    ensures FifoCache.Get(r.0.objectCache, id) == Some(r.1)
    ensures id in s.objectCache.entries.data ==> r == (s, s.objectCache.entries.data[id])
    ensures id !in s.objectCache.entries.data ==> r.0.objectCache == FifoCache.Put(s.objectCache, id, r.1)
  {
    if id in s.objectCache.entries.data then
      (s, s.objectCache.entries.data[id])
    else
      var j := up.fetch(id);
      (s.(objectCache := FifoCache.Put(s.objectCache, id, j)), j)
  }

  /** The leading `num/den` fraction of `ids`, rounded down, in upstream order. */
  function TakeTop(ids: seq<int>, num: nat, den: nat): (top: seq<int>)
    requires den > 0
    ensures |top| == if |ids| * num / den < |ids| then |ids| * num / den else |ids|
    ensures top == ids[..|top|]
  {
    var k := |ids| * num / den;
    if k < |ids| then ids[..k] else ids
  }

  /** With the default tenth, fewer than ten hits keep nothing and n hits keep n div 10. */
  lemma TakeTopTenth(ids: seq<int>)
    ensures |TakeTop(ids, TopNumerator, TopDenominator)| == |ids| / 10
    ensures |ids| < 10 ==> TakeTop(ids, TopNumerator, TopDenominator) == []
  {
  }

  /** Keeps the rows whose term is not `term`. */
  function OtherTerms(term: string): Row -> bool {
    (row: Row) => row.term != term
  }

  /** Keeps the rows whose object id is not among `ids`. */
  function OtherIds(ids: seq<int>): Row -> bool {
    (row: Row) => row.objectId !in ids
  }

  /** The table after deleting the rows of every id in `ids`. */
  function WithoutIds(rows: seq<Row>, ids: seq<int>): (r: seq<Row>)
    ensures forall row :: row in r <==> row in rows && row.objectId !in ids
    ensures forall x :: x in ids ==> !HasRowFor(r, x)
  {
    FilterMembers(rows, OtherIds(ids));
    Filter(rows, OtherIds(ids))
  }

  /** Deleting the rows of `a` and then those of `b` deletes the rows of `a + b`. */
  lemma WithoutIdsTwice(rows: seq<Row>, a: seq<int>, b: seq<int>)
    ensures WithoutIds(WithoutIds(rows, a), b) == WithoutIds(rows, a + b)
  {
    FilterFilter(rows, OtherIds(a), OtherIds(b), OtherIds(a + b));
  }

  /** Deleting the rows of no id changes nothing. */
  lemma WithoutNoIds(rows: seq<Row>)
    ensures WithoutIds(rows, []) == rows
  {
    FilterKeepsAll(rows, OtherIds([]));
  }

  /** `_clear_search_results`: deletes the rows whose term is the normalised
      query; with no table it does nothing. Caches are untouched. */
  function ClearSearchResults(s: Accessor, up: Upstream, query: string): (r: Accessor)
    ensures r.objectCache == s.objectCache && r.searchCache == s.searchCache
    ensures r.table.Some? <==> s.table.Some?
    ensures forall row :: row in Rows(r) <==> row in Rows(s) && row.term != up.quotePlus(query)
    ensures IdsFor(Rows(r), up.quotePlus(query)) == []
  {
    var key := up.quotePlus(query);
    match s.table
    case None => s
    case Some(rows) =>
      var kept := Filter(rows, OtherTerms(key));
      FilterMembers(rows, OtherTerms(key));
      assert forall row :: row in kept <==> row in rows && row.term != key;
      NoRowsNoIds(kept, key);
      s.(table := Some(kept))
  }

  /** `_clear_object`: deletes the rows of object `id` under every term; with
      no table it does nothing. Caches are untouched. */
  function ClearObject(s: Accessor, id: int): (r: Accessor)
    ensures r.objectCache == s.objectCache && r.searchCache == s.searchCache
    ensures r.table.Some? <==> s.table.Some?
    ensures Rows(r) == WithoutIds(Rows(s), [id])
    ensures forall row :: row in Rows(r) <==> row in Rows(s) && row.objectId != id
    ensures !HasRowFor(Rows(r), id)
  {
    match s.table
    case None =>
      WithoutNoIds([]);
      s
    case Some(rows) => s.(table := Some(WithoutIds(rows, [id])))
  }

  /** The first half of `_add_search_results`: on a search-cache miss for the
      normalised query, delete the query's rows, run the upstream search and
      cache its truncated result; on a hit, change nothing. A null result
      raises after the rows are deleted and before anything is cached. */
  function CachedSearch(s: Accessor, up: Upstream, query: string, now: real, num: nat, den: nat): (r: (Accessor, Result<(), Failure>))
    requires Consistent(s, up) && den > 0
    ensures Consistent(r.0, up)
    ensures r.0.objectCache == s.objectCache
    ensures var key := up.quotePlus(query);
            var hit := TtlCache.Lookup(s.searchCache, now, key);
            && (r.1.Err? <==> hit.None? && up.search(query).None?)
            && (r.1.Err? ==> r.1.error == NullSearchResult)
            && (hit.Some? ==> r == (s, Ok(())))
            && (hit.None? ==> r.0.table == ClearSearchResults(s, up, query).table)
            && (hit.None? && up.search(query).None? ==> r.0.searchCache == s.searchCache)
            && (hit.None? && up.search(query).Some? ==>
                  TtlCache.Lookup(r.0.searchCache, now, key) == Some(TakeTop(up.search(query).value, num, den)))
  {
    var key := up.quotePlus(query);
    if TtlCache.Lookup(s.searchCache, now, key).None? then
      var cleared := ClearSearchResults(s, up, query);
      match up.search(query)
      case None => (cleared, Err(NullSearchResult))
      case Some(found) =>
        var ids := TakeTop(found, num, den);
        (cleared.(searchCache := TtlCache.Put(cleared.searchCache, now, key, ids)), Ok(()))
    else (s, Ok(()))
  }

  /** `_add_search_results` at instant `now`. The upstream search runs only
      when the normalised query has no live search-cache entry; then the
      query's rows are deleted first and the truncated result is cached. In
      every case the cached id list is then appended to the table under the
      normalised query (creating the table), unless that list is empty. A
      null search result raises before the insert. AddSearchResultsCaches,
      AddSearchResultsRows and NullSearchKeepsCache state the outcome. */
  function AddSearchResults(s: Accessor, up: Upstream, query: string, now: real, num: nat, den: nat): (r: (Accessor, Result<(), Failure>))
    requires Consistent(s, up) && den > 0
    ensures Consistent(r.0, up)
    ensures r.0.objectCache == s.objectCache
    ensures r.1 == CachedSearch(s, up, query, now, num, den).1
  {
    var key := up.quotePlus(query);
    var (s1, searched) := CachedSearch(s, up, query, now, num, den);
    if searched.Err? then (s1, searched)
    else
      var (cache, cached) := TtlCache.Get(s1.searchCache, now, key);
      (s1.(searchCache := cache, table := AppendRows(s1.table, key, cached.GetOr([]))), Ok(()))
  }

  /** The insert of `ids` under `key`: the table is created on the first
      non-empty insert; an empty list inserts nothing. */
  function AppendRows(table: Option<seq<Row>>, key: string, ids: seq<int>): (r: Option<seq<Row>>)
    ensures r.GetOr([]) == table.GetOr([]) + RowsOf(key, ids)
    ensures r.Some? <==> table.Some? || |ids| > 0
  {
    if |ids| > 0 then Some(table.GetOr([]) + RowsOf(key, ids))
    else
      assert table.GetOr([]) + RowsOf(key, ids) == table.GetOr([]);
      table
  }

  /** The id list an add at `now` works with: the live cached list for the
      normalised query, or else the truncated upstream result (nothing when
      that result is null, where the add raises). */
  function SearchedIds(s: Accessor, up: Upstream, query: string, now: real, num: nat, den: nat): seq<int>
    requires den > 0
  {
    var hit := TtlCache.Lookup(s.searchCache, now, up.quotePlus(query));
    if hit.Some? then hit.value else TakeTop(up.search(query).GetOr([]), num, den)
  }

  /** The add raises exactly when the query has no live search-cache entry
      and the upstream result is null. */
  predicate NullSearch(s: Accessor, up: Upstream, query: string, now: real) {
    TtlCache.Lookup(s.searchCache, now, up.quotePlus(query)).None? && up.search(query).None?
  }

  /** After an add that does not raise, the normalised query reads back its
      id list from the search cache, and a hit leaves the cached lists as
      they were. */
  lemma AddSearchResultsCaches(s: Accessor, up: Upstream, query: string, now: real, num: nat, den: nat)
    requires Consistent(s, up) && den > 0
    ensures var r := AddSearchResults(s, up, query, now, num, den);
            var key := up.quotePlus(query);
            && (r.1.Ok? <==> !NullSearch(s, up, query, now))
            && (r.1.Ok? ==> TtlCache.Lookup(r.0.searchCache, now, key) == Some(SearchedIds(s, up, query, now, num, den)))
            && (TtlCache.Lookup(s.searchCache, now, key).Some? ==>
                  r.0.searchCache.entries.data == s.searchCache.entries.data)
  {
    var key := up.quotePlus(query);
    var s1 := CachedSearch(s, up, query, now, num, den).0;
    if !NullSearch(s, up, query, now) {
      assert TtlCache.Lookup(s1.searchCache, now, key) == Some(SearchedIds(s, up, query, now, num, den));
    }
  }

  /** An add whose search result is null deletes the query's rows, caches
      nothing and raises, so the next add searches again. */
  lemma NullSearchKeepsCache(s: Accessor, up: Upstream, query: string, now: real, num: nat, den: nat, later: real)
    requires Consistent(s, up) && den > 0
    requires NullSearch(s, up, query, now)
    ensures var r := AddSearchResults(s, up, query, now, num, den);
            && r.1 == Err(NullSearchResult)
            && r.0.searchCache == s.searchCache
            && r.0.table == ClearSearchResults(s, up, query).table
            && IdsFor(Rows(r.0), up.quotePlus(query)) == []
            && (later >= now ==> TtlCache.Lookup(r.0.searchCache, later, up.quotePlus(query)).None?)
  {
  }

  /** After an add, the table holds one more row per listed id under the
      normalised query, after losing the query's old rows when the search
      ran; it exists afterwards when it did before or the list is non-empty. */
  lemma AddSearchResultsRows(s: Accessor, up: Upstream, query: string, now: real, num: nat, den: nat)
    requires Consistent(s, up) && den > 0
    ensures var r := AddSearchResults(s, up, query, now, num, den);
            var key := up.quotePlus(query);
            var hit := TtlCache.Lookup(s.searchCache, now, key).Some?;
            var ids := SearchedIds(s, up, query, now, num, den);
            r.1.Ok? ==>
              && Rows(r.0) == (if hit then Rows(s) else ClearSearchResults(s, up, query).table.GetOr([])) + RowsOf(key, ids)
              && (r.0.table.Some? <==> s.table.Some? || |ids| > 0)
  {
    var key := up.quotePlus(query);
    var s1 := CachedSearch(s, up, query, now, num, den).0;
    var ids := SearchedIds(s, up, query, now, num, den);
    if !NullSearch(s, up, query, now) {
      assert TtlCache.Lookup(s1.searchCache, now, key) == Some(ids);
      assert TtlCache.Get(s1.searchCache, now, key).1 == Some(ids);
      assert AddSearchResults(s, up, query, now, num, den).0.table == AppendRows(s1.table, key, ids);
    }
  }

  /** The random-row query: one object id among the rows for `key`, chosen by
      `choice`; nothing when there is no such row; an error when the table
      has never been created. */
  function SampleKey(s: Accessor, key: string, choice: nat): (r: Result<Option<int>, Failure>)
    ensures r.Err? <==> s.table.None?
    ensures r == Ok(None) <==> s.table.Some? && IdsFor(Rows(s), key) == []
    ensures r.Ok? && r.value.Some? ==> Row(key, r.value.value) in Rows(s)
  {
    match s.table
    case None => Err(MissingTable)
    case Some(rows) =>
      var ids := IdsFor(rows, key);
      if |ids| == 0 then Ok(None) else Ok(Some(ids[choice % |ids|]))
  }

  /** `_get_object`: the complete-view row of object `id`, loading its record
      (through the object cache) when the table holds a row for it. */
  function GetObject(s: Accessor, up: Upstream, id: int): (r: (Accessor, Result<Option<ArtObject>, Failure>))
    requires Consistent(s, up)
    ensures Consistent(r.0, up)
    ensures r.0.searchCache == s.searchCache && r.0.table == s.table
    ensures r.1.Err? <==> s.table.None?
    ensures r.1.Ok? && r.1.value.Some? <==> s.table.Some? && HasRowFor(Rows(s), id)
    ensures r.1.Ok? && r.1.value.Some? ==>
              && r.1.value.value == Project(id, up.fetch(id), up.quote)
              && FifoCache.Get(r.0.objectCache, id) == Some(up.fetch(id))
    ensures !HasRowFor(Rows(s), id) ==> r.0 == s
  {
    match s.table
    case None => (s, Err(MissingTable))
    case Some(rows) =>
      if HasRowFor(rows, id) then
        var (s', j) := LoadMetObject(s, up, id);
        (s', Ok(Some(Project(id, j, up.quote))))
      else (s, Ok(None))
  }

  /** The object record `id` resolves to has a usable image. */
  predicate Suitable(up: Upstream, id: int) {
    Project(id, up.fetch(id), up.quote).hasImage
  }

  /** The outcome of a sampling run: the final state, what the caller gets,
      and the ids sampled, in order. */
  datatype Draw = Draw(state: Accessor, result: Result<Option<ArtObject>, Failure>, sampled: seq<int>)

  /** The ids a run deleted from the table: every sampled id but the one
      whose object is returned. */
  function Cleared(d: Draw): seq<int> {
    if d.result.Ok? && d.result.value.Some? && |d.sampled| > 0 then d.sampled[..|d.sampled| - 1]
    else d.sampled
  }

  /** The most samples a run starting at `attempts` can take. */
  function SampleBound(retries: int, attempts: nat): int {
    if attempts <= retries + 1 then retries + 2 - attempts else 1
  }

  /** One sampling step: the random-row query for `key`, then the lookup of
      the chosen object. */
  datatype Pick = NoTable | NoRows | Picked(id: int, state: Accessor, art: ArtObject)

  function Step(s: Accessor, up: Upstream, key: string, choice: nat): (p: Pick)
    requires Consistent(s, up)
    ensures p.NoTable? <==> s.table.None?
    ensures p.NoRows? <==> s.table.Some? && IdsFor(Rows(s), key) == []
    ensures p.Picked? ==>
              && Consistent(p.state, up)
              && p.state.searchCache == s.searchCache && p.state.table == s.table
              && Row(key, p.id) in Rows(s)
              && p.art == Project(p.id, up.fetch(p.id), up.quote)
              && (p.art.hasImage <==> Suitable(up, p.id))
  {
    match SampleKey(s, key, choice)
    case Err(_) => NoTable
    case Ok(None) => NoRows
    case Ok(Some(id)) =>
      assert HasRowFor(Rows(s), id) by {
        var i :| 0 <= i < |Rows(s)| && Rows(s)[i] == Row(key, id);
      }
      var (s2, found) := GetObject(s, up, id);
      if found.Ok? && found.value.Some? then Picked(id, s2, found.value.value)
      else assert false; NoRows
  }

  /** `_get_random_art` with `search_if_absent` off, from attempt `attempts`:
      sample a row for `key`; if its object has no image and the attempt count
      is within `retries`, delete that object's rows and sample again with the
      count raised by one; otherwise return the object, with or without image.
      What the run returns and deletes is stated by the lemmas below. */
  function SampleWithRetries(s: Accessor, up: Upstream, key: string, retries: int, attempts: nat, pick: nat -> nat): (d: Draw)
    requires Consistent(s, up)
    decreases if attempts <= retries then retries - attempts + 1 else 0
    ensures Consistent(d.state, up)
    ensures d.state.searchCache == s.searchCache
    ensures d.state.table.Some? <==> s.table.Some?
  {
    match Step(s, up, key, pick(attempts))
    case NoTable => Draw(s, Err(MissingTable), [])
    case NoRows => Draw(s, Ok(None), [])
    case Picked(id, s2, a) =>
      if !a.hasImage && attempts <= retries then
        var d := SampleWithRetries(ClearObject(s2, id), up, key, retries, attempts + 1, pick);
        Draw(d.state, d.result, [id] + d.sampled)
      else
        Draw(s2, Ok(Some(a)), [id])
  }

  /** A run samples at most `retries + 2 - attempts` times (once, if the
      budget is already spent), and raises exactly when the table is missing,
      before sampling anything. */
  lemma {:induction false} RetriesBounded(s: Accessor, up: Upstream, key: string, retries: int, attempts: nat, pick: nat -> nat)
    requires Consistent(s, up)
    decreases if attempts <= retries then retries - attempts + 1 else 0
    ensures var d := SampleWithRetries(s, up, key, retries, attempts, pick);
            && |d.sampled| <= SampleBound(retries, attempts)
            && (d.result.Err? <==> s.table.None?)
            && (d.result.Err? ==> d.sampled == [])
  {
    match Step(s, up, key, pick(attempts))
    case NoTable =>
    case NoRows =>
    case Picked(id, s2, a) =>
      if !a.hasImage && attempts <= retries {
        RetriesBounded(ClearObject(s2, id), up, key, retries, attempts + 1, pick);
      }
  }

  /** The first id a run samples comes from a row for `key`. */
  lemma RetriesSampleFromKey(s: Accessor, up: Upstream, key: string, retries: int, attempts: nat, pick: nat -> nat)
    requires Consistent(s, up)
    ensures var d := SampleWithRetries(s, up, key, retries, attempts, pick);
            |d.sampled| > 0 ==> Row(key, d.sampled[0]) in Rows(s)
  {
  }

  /** A run returns nothing only once no row for `key` is left. */
  lemma {:induction false} RetriesNothingLeft(s: Accessor, up: Upstream, key: string, retries: int, attempts: nat, pick: nat -> nat)
    requires Consistent(s, up)
    decreases if attempts <= retries then retries - attempts + 1 else 0
    ensures var d := SampleWithRetries(s, up, key, retries, attempts, pick);
            d.result == Ok(None) ==> IdsFor(Rows(d.state), key) == []
  {
    match Step(s, up, key, pick(attempts))
    case NoTable =>
    case NoRows =>
    case Picked(id, s2, a) =>
      if !a.hasImage && attempts <= retries {
        RetriesNothingLeft(ClearObject(s2, id), up, key, retries, attempts + 1, pick);
      }
  }

  /** A run that returns an object returns the projection of the last id it
      sampled, and one without an image only once the budget of retries
      counted from `attempts` is spent. */
  predicate ReturnsLastSampled(d: Draw, up: Upstream, retries: int, attempts: nat) {
    d.result.Ok? && d.result.value.Some? ==>
      && |d.sampled| > 0
      && var last := d.sampled[|d.sampled| - 1];
      && d.result.value.value == Project(last, up.fetch(last), up.quote)
      && (d.result.value.value.hasImage || attempts + |d.sampled| - 1 > retries)
  }

  /** Prefixing a retry's samples with the rejected id keeps the last sample
      and spends one more attempt. */
  lemma PrefixKeepsLast(d: Draw, up: Upstream, retries: int, attempts: nat, id: int)
    requires ReturnsLastSampled(d, up, retries, attempts + 1)
    ensures ReturnsLastSampled(Draw(d.state, d.result, [id] + d.sampled), up, retries, attempts)
  {
    if d.result.Ok? && d.result.value.Some? {
      assert ([id] + d.sampled)[|d.sampled|] == d.sampled[|d.sampled| - 1];
    }
  }

  /** A run returns an object only for the last id it sampled, projected from
      that id's upstream record, and one without an image only once the retry
      budget is spent. */
  lemma {:induction false} RetriesOutcome(s: Accessor, up: Upstream, key: string, retries: int, attempts: nat, pick: nat -> nat)
    requires Consistent(s, up)
    decreases if attempts <= retries then retries - attempts + 1 else 0
    ensures ReturnsLastSampled(SampleWithRetries(s, up, key, retries, attempts, pick), up, retries, attempts)
  {
    match Step(s, up, key, pick(attempts))
    case NoTable =>
    case NoRows =>
    case Picked(id, s2, a) =>
      if !a.hasImage && attempts <= retries {
        var s3 := ClearObject(s2, id);
        var d := SampleWithRetries(s3, up, key, retries, attempts + 1, pick);
        RetriesOutcome(s3, up, key, retries, attempts + 1, pick);
        PrefixKeepsLast(d, up, retries, attempts, id);
      } else {
        assert [id][|[id]| - 1] == id;
      }
  }

  /** A run deletes from the table exactly the rows of the ids it rejected. */
  lemma {:induction false} RetriesClear(s: Accessor, up: Upstream, key: string, retries: int, attempts: nat, pick: nat -> nat)
    requires Consistent(s, up)
    decreases if attempts <= retries then retries - attempts + 1 else 0
    ensures var d := SampleWithRetries(s, up, key, retries, attempts, pick);
            Rows(d.state) == WithoutIds(Rows(s), Cleared(d))
  {
    match Step(s, up, key, pick(attempts))
    case NoTable => WithoutNoIds(Rows(s));
    case NoRows => WithoutNoIds(Rows(s));
    case Picked(id, s2, a) =>
      if !a.hasImage && attempts <= retries {
        var s3 := ClearObject(s2, id);
        RetriesClear(s3, up, key, retries, attempts + 1, pick);
        RetriesOutcome(s3, up, key, retries, attempts + 1, pick);
        var d := SampleWithRetries(s3, up, key, retries, attempts + 1, pick);
        assert ReturnsLastSampled(d, up, retries, attempts + 1);
        RetryCleared(d, id);
        WithoutIdsTwice(Rows(s), [id], Cleared(d));
      } else {
        WithoutNoIds(Rows(s));
      }
  }

  /** Every id a run deleted has an object without an image. */
  predicate RejectsOnlyUnsuitable(d: Draw, up: Upstream) {
    forall i :: 0 <= i < |Cleared(d)| ==> !Suitable(up, Cleared(d)[i])
  }

  /** Prefixing a retry's samples with an unsuitable id keeps every deleted id unsuitable. */
  lemma PrefixRejectsUnsuitable(d: Draw, up: Upstream, retries: int, attempts: nat, id: int)
    requires ReturnsLastSampled(d, up, retries, attempts)
    requires RejectsOnlyUnsuitable(d, up) && !Suitable(up, id)
    ensures RejectsOnlyUnsuitable(Draw(d.state, d.result, [id] + d.sampled), up)
  {
    RetryCleared(d, id);
    var c := [id] + Cleared(d);
    forall i | 0 <= i < |c|
      ensures !Suitable(up, c[i])
    {
      if i > 0 {
        assert c[i] == Cleared(d)[i - 1];
      }
    }
  }

  /** A run rejects only ids whose object has no image. */
  lemma {:induction false} RetriesRejectOnlyUnsuitable(s: Accessor, up: Upstream, key: string, retries: int, attempts: nat, pick: nat -> nat)
    requires Consistent(s, up)
    decreases if attempts <= retries then retries - attempts + 1 else 0
    ensures RejectsOnlyUnsuitable(SampleWithRetries(s, up, key, retries, attempts, pick), up)
  {
    match Step(s, up, key, pick(attempts))
    case NoTable =>
    case NoRows =>
    case Picked(id, s2, a) =>
      if !a.hasImage && attempts <= retries {
        var s3 := ClearObject(s2, id);
        RetriesRejectOnlyUnsuitable(s3, up, key, retries, attempts + 1, pick);
        RetriesOutcome(s3, up, key, retries, attempts + 1, pick);
        var d := SampleWithRetries(s3, up, key, retries, attempts + 1, pick);
        PrefixRejectsUnsuitable(d, up, retries, attempts + 1, id);
      }
  }

  /** A retry that starts by deleting `id` has `id` ahead of what the rest of
      the run deletes. */
  lemma RetryCleared(d: Draw, id: int)
    requires d.result.Ok? && d.result.value.Some? ==> |d.sampled| > 0
    ensures Cleared(Draw(d.state, d.result, [id] + d.sampled)) == [id] + Cleared(d)
  {
    var r := Draw(d.state, d.result, [id] + d.sampled);
    if d.result.Ok? && d.result.value.Some? {
      assert r.sampled[..|r.sampled| - 1] == [id] + d.sampled[..|d.sampled| - 1];
    }
  }

  /** The state the sampling loop of `_get_random_art` starts from: the state
      after adding the search results for `query` when `searchIfAbsent`,
      otherwise the state as it is. */
  function SearchedState(s: Accessor, up: Upstream, query: string, searchIfAbsent: bool, now: real): (r: Accessor)
    requires Consistent(s, up)
    ensures Consistent(r, up)
    ensures !searchIfAbsent ==> r == s
    ensures searchIfAbsent && !NullSearch(s, up, query, now) ==>
              TtlCache.Lookup(r.searchCache, now, up.quotePlus(query)) == Some(SearchedIds(s, up, query, now, TopNumerator, TopDenominator))
  {
    AddSearchResultsCaches(s, up, query, now, TopNumerator, TopDenominator);
    if searchIfAbsent then AddSearchResults(s, up, query, now, TopNumerator, TopDenominator).0 else s
  }

  /** `_get_random_art` from its first attempt: with `searchIfAbsent` the
      search results for `query` are added first, and a null search result
      raises before any row is sampled; then rows are sampled under the
      normalised query. `get_random_art` calls it with search on and
      `DefaultRetries`. */
  function GetRandomArt(s: Accessor, up: Upstream, query: string, searchIfAbsent: bool, retries: int, now: real, pick: nat -> nat): (d: Draw)
    requires Consistent(s, up)
    ensures !(searchIfAbsent && NullSearch(s, up, query, now)) ==>
              d == SampleWithRetries(SearchedState(s, up, query, searchIfAbsent, now), up, up.quotePlus(query), retries, 0, pick)
    ensures Consistent(d.state, up)
    ensures !searchIfAbsent ==> d.state.searchCache == s.searchCache
    ensures d.result == Err(NullSearchResult) <==> searchIfAbsent && NullSearch(s, up, query, now)
    ensures d.result == Err(NullSearchResult) ==> d.state.searchCache == s.searchCache && d.sampled == []
    ensures searchIfAbsent && !NullSearch(s, up, query, now) ==>
              TtlCache.Lookup(d.state.searchCache, now, up.quotePlus(query)).Some?
  {
    if searchIfAbsent then
      AddSearchResultsCaches(s, up, query, now, TopNumerator, TopDenominator);
      var (s1, added) := AddSearchResults(s, up, query, now, TopNumerator, TopDenominator);
      if added.Err? then Draw(s1, Err(NullSearchResult), [])
      else
        RetriesBounded(s1, up, up.quotePlus(query), retries, 0, pick);
        SampleWithRetries(s1, up, up.quotePlus(query), retries, 0, pick)
    else
      RetriesBounded(s, up, up.quotePlus(query), retries, 0, pick);
      SampleWithRetries(s, up, up.quotePlus(query), retries, 0, pick)
  }

  /** A call that returns an object returns the projection of the last id it
      sampled, and one without an image only once the retry budget is spent. */
  lemma GetRandomArtReturnsLastSampled(s: Accessor, up: Upstream, query: string, searchIfAbsent: bool, retries: int, now: real, pick: nat -> nat)
    requires Consistent(s, up)
    ensures ReturnsLastSampled(GetRandomArt(s, up, query, searchIfAbsent, retries, now, pick), up, retries, 0)
  {
    if !(searchIfAbsent && NullSearch(s, up, query, now)) {
      RetriesOutcome(SearchedState(s, up, query, searchIfAbsent, now), up, up.quotePlus(query), retries, 0, pick);
    }
  }

  /** `get_random_art`'s promise: when the rows under the query hold an object
      with an image and at most `retries + 1` distinct objects without one,
      the call returns an object with an image. */
  lemma GetRandomArtFindsImage(s: Accessor, up: Upstream, query: string, searchIfAbsent: bool, retries: int, now: real, pick: nat -> nat)
    requires Consistent(s, up) && !(searchIfAbsent && NullSearch(s, up, query, now))
    requires var s1 := SearchedState(s, up, query, searchIfAbsent, now);
             && s1.table.Some?
             && (exists g :: Row(up.quotePlus(query), g) in Rows(s1) && Suitable(up, g))
             && |UnsuitableIds(Rows(s1), up.quotePlus(query), up)| <= retries + 1
    ensures var d := GetRandomArt(s, up, query, searchIfAbsent, retries, now, pick);
            d.result.Ok? && d.result.value.Some? && d.result.value.value.hasImage
  {
    EnoughRetriesFindImage(SearchedState(s, up, query, searchIfAbsent, now), up, up.quotePlus(query), retries, 0, pick);
  }

  /** When no object under the query has an image and the budget covers them
      all, the call deletes every row of the query and returns nothing. */
  lemma GetRandomArtNoImage(s: Accessor, up: Upstream, query: string, searchIfAbsent: bool, retries: int, now: real, pick: nat -> nat)
    requires Consistent(s, up) && !(searchIfAbsent && NullSearch(s, up, query, now))
    requires var s1 := SearchedState(s, up, query, searchIfAbsent, now);
             && s1.table.Some?
             && (forall x :: Row(up.quotePlus(query), x) in Rows(s1) ==> !Suitable(up, x))
             && |UnsuitableIds(Rows(s1), up.quotePlus(query), up)| <= retries + 1
    ensures var d := GetRandomArt(s, up, query, searchIfAbsent, retries, now, pick);
            d.result == Ok(None) && IdsFor(Rows(d.state), up.quotePlus(query)) == []
  {
    NoImageExhaustsRows(SearchedState(s, up, query, searchIfAbsent, now), up, up.quotePlus(query), retries, 0, pick);
  }

  /** With the default of ten retries, a call samples at most twelve rows. */
  lemma DefaultRetriesBounded(s: Accessor, up: Upstream, query: string, now: real, pick: nat -> nat)
    requires Consistent(s, up)
    ensures |GetRandomArt(s, up, query, true, DefaultRetries, now, pick).sampled| <= 12
  {
    var s1 := AddSearchResults(s, up, query, now, TopNumerator, TopDenominator).0;
    RetriesBounded(s1, up, up.quotePlus(query), DefaultRetries, 0, pick);
  }

  /** Once an object's rows are deleted, no draw under any term picks it. */
  lemma ClearedObjectNeverSampled(s: Accessor, id: int, key: string, choice: nat)
    ensures SampleKey(ClearObject(s, id), key, choice) != Ok(Some(id))
  {
  }

  /** Deleting an object's rows does not stop it coming back: while the
      search cache still holds a list with that id, the next add re-inserts
      its row under the normalised query without consulting the upstream
      search. */
  lemma ClearedObjectReturnsOnCacheHit(s: Accessor, up: Upstream, query: string, now: real, id: int)
    requires Consistent(s, up)
    requires var hit := TtlCache.Lookup(s.searchCache, now, up.quotePlus(query));
             hit.Some? && id in hit.value
    ensures Row(up.quotePlus(query), id) in Rows(AddSearchResults(ClearObject(s, id), up, query, now, TopNumerator, TopDenominator).0)
  {
    var s1 := ClearObject(s, id);
    var key := up.quotePlus(query);
    var ids := SearchedIds(s1, up, query, now, TopNumerator, TopDenominator);
    AddSearchResultsRows(s1, up, query, now, TopNumerator, TopDenominator);
    var k :| 0 <= k < |ids| && ids[k] == id;
    var rows := Rows(AddSearchResults(s1, up, query, now, TopNumerator, TopDenominator).0);
    assert rows[|Rows(s1)| + k] == Row(key, id);
  }

  /** A first search with fewer than ten upstream hits keeps nothing, so no
      table is created and the draw that follows raises. */
  lemma FewHitsRaise(s: Accessor, up: Upstream, query: string, retries: int, now: real, pick: nat -> nat)
    requires Consistent(s, up) && s.table.None?
    requires TtlCache.Lookup(s.searchCache, now, up.quotePlus(query)).None?
    requires up.search(query).Some? && |up.search(query).value| < 10
    ensures GetRandomArt(s, up, query, true, retries, now, pick).result == Err(MissingTable)
  {
    var s1 := AddSearchResults(s, up, query, now, TopNumerator, TopDenominator).0;
    TakeTopTenth(up.search(query).value);
    AddSearchResultsRows(s, up, query, now, TopNumerator, TopDenominator);
    assert s1.table.None?;
    RetriesBounded(s1, up, up.quotePlus(query), retries, 0, pick);
  }

  /** The distinct ids under `key` whose object has no image. */
  function UnsuitableIds(rows: seq<Row>, key: string, up: Upstream): set<int> {
    set x | x in IdsFor(rows, key) && !Suitable(up, x)
  }

  /** Deleting the rows of one unsuitable id removes exactly that id from the
      unsuitable ones. */
  lemma ClearShrinksUnsuitable(rows: seq<Row>, key: string, up: Upstream, id: int)
    requires id in UnsuitableIds(rows, key, up)
    ensures UnsuitableIds(WithoutIds(rows, [id]), key, up) == UnsuitableIds(rows, key, up) - {id}
    ensures |UnsuitableIds(WithoutIds(rows, [id]), key, up)| == |UnsuitableIds(rows, key, up)| - 1
  {
    var after := WithoutIds(rows, [id]);
    forall x
      ensures x in UnsuitableIds(after, key, up) <==> x in UnsuitableIds(rows, key, up) - {id}
    {
      assert x in IdsFor(after, key) <==> Row(key, x) in after;
      assert x in IdsFor(rows, key) <==> Row(key, x) in rows;
    }
  }

  /** A run that has an id with an image under `key`, and few enough distinct
      ids without one to be rejected within the retry budget, returns an
      object with an image. */
  lemma {:induction false} EnoughRetriesFindImage(s: Accessor, up: Upstream, key: string, retries: int, attempts: nat, pick: nat -> nat)
    requires Consistent(s, up) && s.table.Some?
    requires exists g :: Row(key, g) in Rows(s) && Suitable(up, g)
    requires attempts + |UnsuitableIds(Rows(s), key, up)| <= retries + 1
    decreases if attempts <= retries then retries - attempts + 1 else 0
    ensures var d := SampleWithRetries(s, up, key, retries, attempts, pick);
            d.result.Ok? && d.result.value.Some? && d.result.value.value.hasImage
  {
    var g :| Row(key, g) in Rows(s) && Suitable(up, g);
    assert g in IdsFor(Rows(s), key);
    match Step(s, up, key, pick(attempts))
    case NoTable =>
    case NoRows =>
    case Picked(id, s2, a) =>
      if !a.hasImage {
        assert id in UnsuitableIds(Rows(s), key, up);
        var s3 := ClearObject(s2, id);
        ClearShrinksUnsuitable(Rows(s), key, up, id);
        assert Row(key, g) in Rows(s3);
        EnoughRetriesFindImage(s3, up, key, retries, attempts + 1, pick);
      }
  }

  /** A run under a key whose every object lacks an image, with the budget to
      reject them all, deletes all of the key's rows and returns nothing. */
  lemma {:induction false} NoImageExhaustsRows(s: Accessor, up: Upstream, key: string, retries: int, attempts: nat, pick: nat -> nat)
    requires Consistent(s, up) && s.table.Some?
    requires forall x :: Row(key, x) in Rows(s) ==> !Suitable(up, x)
    requires attempts + |UnsuitableIds(Rows(s), key, up)| <= retries + 1
    decreases if attempts <= retries then retries - attempts + 1 else 0
    ensures var d := SampleWithRetries(s, up, key, retries, attempts, pick);
            d.result == Ok(None) && IdsFor(Rows(d.state), key) == []
  {
    match Step(s, up, key, pick(attempts))
    case NoTable =>
    case NoRows =>
    case Picked(id, s2, a) =>
      assert id in UnsuitableIds(Rows(s), key, up);
      var s3 := ClearObject(s2, id);
      ClearShrinksUnsuitable(Rows(s), key, up, id);
      NoImageExhaustsRows(s3, up, key, retries, attempts + 1, pick);
  }
}

=== FILE: met_object.dfy ===
/** The upstream object record of the Met collection API, as far as the
    system reads it, and its projection onto the `ArtObject` served to callers
    (the `met_objects_complete` view of art_accessors.py). */
module MetObject {
  import opened Base
  import opened Decimal

  /** The keys of an upstream object record the system reads. A field is
      `None` when the key is missing or holds JSON null; `objectID` is only read
      from the bundled default list. */
  datatype MetJson = MetJson(
    objectID: int,
    artistDisplayName: Option<string>,
    culture: Option<string>,
    title: Option<string>,
    objectDate: Option<string>,
    primaryImage: Option<string>,
    primaryImageSmall: Option<string>)

  /** The record served to callers. The columns the lookup query always sets
      to null (structured date, thumbnail, meta) are not carried. */
  datatype ArtObject = ArtObject(
    id: string,
    attribution: Option<string>,
    attributionQuoted: Option<string>,
    secondaryAttribution: Option<string>,
    secondaryAttributionQuoted: Option<string>,
    title: Option<string>,
    titleQuoted: Option<string>,
    rawCreationDate: Option<string>,
    smallImageUrl: Option<string>,
    largeImageUrl: Option<string>,
    largestImageUrl: Option<string>,
    smallestImageUrl: Option<string>,
    hasImage: bool)

  /** SQL `coalesce(a, b)`: the first non-null argument, or null. */
  function Coalesce(a: Option<string>, b: Option<string>): (r: Option<string>)
    ensures r.Some? <==> a.Some? || b.Some?
    ensures r.Some? ==> (r == a || r == b)
    ensures a.Some? ==> r == a
  {
    if a.Some? then a else b
  }

  /** A scalar SQL function applied to a possibly-null argument: null stays null. */
  function Apply(f: string -> string, a: Option<string>): (r: Option<string>)
    ensures r.Some? <==> a.Some?
    ensures a.Some? ==> r.value == f(a.value)
  {
    match a
    case Some(x) => Some(f(x))
    case None => None
  }

  /** The suitability rule: a usable image exists when the largest image URL
      is neither null nor empty. */
  predicate HasImage(largest: Option<string>) {
    largest.Some? && largest.value != ""
  }

  /** One row of the complete view for a row with `objectId` whose upstream
      record is `j`; `quote` is the URL-quoting function the view applies. */
  function Project(objectId: int, j: MetJson, quote: string -> string): (a: ArtObject)
    ensures a.id == DecimalString(objectId)
    ensures a.largeImageUrl == j.primaryImage && a.smallImageUrl == j.primaryImageSmall
    ensures a.largestImageUrl.Some? <==> j.primaryImage.Some? || j.primaryImageSmall.Some?
    ensures a.smallestImageUrl.Some? <==> j.primaryImage.Some? || j.primaryImageSmall.Some?
    ensures j.primaryImage.Some? ==> a.largestImageUrl == j.primaryImage
    ensures j.primaryImageSmall.Some? ==> a.smallestImageUrl == j.primaryImageSmall
    ensures a.hasImage <==>
              if j.primaryImage.Some? then j.primaryImage.value != ""
              else j.primaryImageSmall.Some? && j.primaryImageSmall.value != ""
    ensures a.largestImageUrl == Coalesce(j.primaryImage, j.primaryImageSmall)
    ensures a.smallestImageUrl == Coalesce(j.primaryImageSmall, j.primaryImage)
    ensures a.title == j.title && a.attribution == j.artistDisplayName
    ensures a.secondaryAttribution == j.culture && a.rawCreationDate == j.objectDate
    ensures a.attributionQuoted.Some? <==> a.attribution.Some?
    ensures a.attribution.Some? ==> a.attributionQuoted == Some(quote(a.attribution.value))
    ensures a.secondaryAttributionQuoted.Some? <==> a.secondaryAttribution.Some?
    ensures a.secondaryAttribution.Some? ==> a.secondaryAttributionQuoted == Some(quote(a.secondaryAttribution.value))
    ensures a.titleQuoted.Some? <==> a.title.Some?
    ensures a.title.Some? ==> a.titleQuoted == Some(quote(a.title.value))
  {
    var largest := Coalesce(j.primaryImage, j.primaryImageSmall);
    ArtObject(
      id := DecimalString(objectId),
      attribution := j.artistDisplayName,
      attributionQuoted := Apply(quote, j.artistDisplayName),
      secondaryAttribution := j.culture,
      secondaryAttributionQuoted := Apply(quote, j.culture),
      title := j.title,
      titleQuoted := Apply(quote, j.title),
      rawCreationDate := j.objectDate,
      smallImageUrl := j.primaryImageSmall,
      largeImageUrl := j.primaryImage,
      largestImageUrl := largest,
      smallestImageUrl := Coalesce(j.primaryImageSmall, j.primaryImage),
      hasImage := HasImage(largest))
  }

  /** An empty-string main image hides a non-empty small image: the record
      counts as having no image. */
  lemma EmptyPrimaryImageMeansNoImage(objectId: int, j: MetJson, quote: string -> string)
    requires j.primaryImage == Some("")
    ensures !Project(objectId, j, quote).hasImage
    ensures Project(objectId, j, quote).largestImageUrl == Some("")
  {
  }
}

=== FILE: ordered_map.dfy ===
/** A map that remembers an order over its keys, oldest first: the common
    representation of the three caches of the system (insertion-ordered,
    use-ordered and expiring). */
module OrderedMap {
  import opened Base

  datatype OMap<K, V> = OMap(order: seq<K>, data: map<K, V>)

  /** Every key occurs once in `order`, and `order` lists exactly the stored keys. */
  ghost predicate Valid<K(!new), V>(m: OMap<K, V>) {
    && Distinct(m.order)
    && (forall k :: k in m.order <==> k in m.data)
  }

  function Empty<K(!new), V>(): (m: OMap<K, V>)
    ensures Valid(m) && m.data == map[] && m.order == []
  {
    OMap([], map[])
  }

  /** Removes the oldest key. */
  function DropOldest<K(!new), V>(m: OMap<K, V>): (r: OMap<K, V>)
    requires Valid(m) && |m.order| > 0
    ensures Valid(r)
    ensures m.order[0] in m.data
    ensures r.data == m.data - {m.order[0]} && r.order == m.order[1..]
    ensures |r.order| == |m.order| - 1
  {
    OMap(m.order[1..], m.data - {m.order[0]})
  }

  /** Stores `v` under `k` and makes `k` the newest key. */
  function Touch<K(!new), V>(m: OMap<K, V>, k: K, v: V): (r: OMap<K, V>)
    requires Valid(m)
    ensures Valid(r)
    ensures r.data == m.data[k := v]
    ensures r.order == Without(m.order, k) + [k]
    ensures |r.order| == if k in m.data then |m.order| else |m.order| + 1
  {
    var rest := Without(m.order, k);
    AppendFreshDistinct(rest, k);
    OMap(rest + [k], m.data[k := v])
  }

  /** Stores `v` under `k`; a key already present keeps its place in the order,
      a new key becomes the newest. */
  function Assign<K(!new), V>(m: OMap<K, V>, k: K, v: V): (r: OMap<K, V>)
    requires Valid(m)
    ensures Valid(r)
    ensures r.data == m.data[k := v]
    ensures k in m.data ==> r.order == m.order
    ensures k !in m.data ==> r.order == m.order + [k]
    ensures |r.order| == if k in m.data then |m.order| else |m.order| + 1
  {
    if k in m.data then OMap(m.order, m.data[k := v])
    else
      AppendFreshDistinct(m.order, k);
      OMap(m.order + [k], m.data[k := v])
  }

  /** Removes `k`, if present. */
  function Delete<K(!new), V>(m: OMap<K, V>, k: K): (r: OMap<K, V>)
    requires Valid(m)
    ensures Valid(r)
    ensures r.data == m.data - {k}
    ensures r.order == Without(m.order, k)
    ensures |r.order| == if k in m.data then |m.order| - 1 else |m.order|
  {
    OMap(Without(m.order, k), m.data - {k})
  }

  /** Keeps only the keys that satisfy `keep`, in their order. */
  function Restrict<K(!new), V>(m: OMap<K, V>, keep: K -> bool): (r: OMap<K, V>)
    requires Valid(m)
    ensures Valid(r)
    ensures forall k :: k in r.data <==> k in m.data && keep(k)
    ensures forall k :: k in r.data ==> r.data[k] == m.data[k]
    ensures r.order == Filter(m.order, keep)
  {
    FilterDistinct(m.order, keep);
    FilterMembers(m.order, keep);
    OMap(Filter(m.order, keep), map k | k in m.data && keep(k) :: m.data[k])
  }
}

=== FILE: smarten.dfy ===
/** `smarten` of static/base_scripts.js: five global regular-expression
    replacements applied in turn. Opening single quotes, then every other
    straight single quote closes; opening double quotes, then every other
    straight double quote closes; then every `--` becomes an em dash. A
    global replacement scans left to right and resumes after each match, so
    each pass is modelled as that scan. */
module Smarten {

  const EmDash: char := '\U{2014}'

  /** The characters JavaScript's `\s` matches: the ECMAScript white space
      and line terminators. */
  predicate IsJsSpace(c: char) {
    || c == '\t' || c == '\n' || c == '\U{B}' || c == '\U{C}' || c == '\r' || c == ' '
    || c == '\U{A0}' || c == '\U{1680}' || ('\U{2000}' <= c <= '\U{200A}')
    || c == '\U{2028}' || c == '\U{2029}' || c == '\U{202F}' || c == '\U{205F}'
    || c == '\U{3000}' || c == '\U{FEFF}'
  }

  /** The two kinds of quote the passes handle. */
  datatype Kind = Single | Double {
    /** The straight quote the passes replace. */
    function Straight(): char {
      match this
      case Single => '\''
      case Double => '"'
    }

    function Opening(): char {
      match this
      case Single => '\U{2018}'
      case Double => '\U{201C}'
    }

    function Closing(): char {
      match this
      case Single => '\U{2019}'
      case Double => '\U{201D}'
    }

    /** The class before a quote that makes it opening: `[-—\s(\["]`
        for single quotes, `[-—/\[(‘\s]` for double quotes. */
    predicate Opener(c: char) {
      match this
      case Single => c == '-' || c == EmDash || IsJsSpace(c) || c == '(' || c == '[' || c == '"'
      case Double => c == '-' || c == EmDash || c == '/' || c == '[' || c == '(' || c == '\U{2018}' || IsJsSpace(c)
    }
  }

  /** The scan of `/(^|[opener])q/g` replaced by `$1` and the opening quote,
      over the rest `t` of the text; `start` tells whether `t` begins the
      text, where `^` matches. A match of the opener class consumes the
      opener character too, and the scan resumes after the quote. */
  function OpenPass(t: string, start: bool, k: Kind): (r: string)
    ensures |r| == |t|
  {
    if t == [] then []
    else if start && t[0] == k.Straight() then [k.Opening()] + OpenPass(t[1..], false, k)
    else if |t| >= 2 && k.Opener(t[0]) && t[1] == k.Straight() then [t[0], k.Opening()] + OpenPass(t[2..], false, k)
    else [t[0]] + OpenPass(t[1..], false, k)
  }

  /** The quote at `i` of `t` is one the opening pass replaces, judged from
      its neighbour alone. */
  predicate OpensAt(t: string, start: bool, k: Kind, i: int)
    requires 0 <= i < |t|
  {
    t[i] == k.Straight() && ((i == 0 && start) || (i > 0 && k.Opener(t[i - 1])))
  }

  /** The opening pass is a local rule: since neither opener class holds its
      own quote, a consumed opener never hides a later match, and each quote
      opens exactly when it starts the text or follows an opener. */
  lemma {:induction false} OpenPassPointwise(t: string, start: bool, k: Kind)
    ensures forall i :: 0 <= i < |t| ==>
              OpenPass(t, start, k)[i] == if OpensAt(t, start, k, i) then k.Opening() else t[i]
  {
    if t != [] {
      var r := OpenPass(t, start, k);
      if start && t[0] == k.Straight() {
        var rest := t[1..];
        OpenPassPointwise(rest, false, k);
        assert forall i :: 1 <= i < |t| ==> r[i] == if OpensAt(t, start, k, i) then k.Opening() else t[i] by {
          forall i | 1 <= i < |t|
            ensures r[i] == if OpensAt(t, start, k, i) then k.Opening() else t[i]
          {
            assert r[i] == OpenPass(rest, false, k)[i - 1];
            assert rest[i - 1] == t[i];
            if i > 1 {
              assert rest[i - 2] == t[i - 1];
            }
          }
        }
      } else if |t| >= 2 && k.Opener(t[0]) && t[1] == k.Straight() {
        var rest := t[2..];
        OpenPassPointwise(rest, false, k);
        assert forall i :: 2 <= i < |t| ==> r[i] == if OpensAt(t, start, k, i) then k.Opening() else t[i] by {
          forall i | 2 <= i < |t|
            ensures r[i] == if OpensAt(t, start, k, i) then k.Opening() else t[i]
          {
            assert r[i] == OpenPass(rest, false, k)[i - 2];
            assert rest[i - 2] == t[i];
            if i > 2 {
              assert rest[i - 3] == t[i - 1];
            }
          }
        }
      } else {
        var rest := t[1..];
        OpenPassPointwise(rest, false, k);
        assert forall i :: 1 <= i < |t| ==> r[i] == if OpensAt(t, start, k, i) then k.Opening() else t[i] by {
          forall i | 1 <= i < |t|
            ensures r[i] == if OpensAt(t, start, k, i) then k.Opening() else t[i]
          {
            assert r[i] == OpenPass(rest, false, k)[i - 1];
            assert rest[i - 1] == t[i];
            if i > 1 {
              assert rest[i - 2] == t[i - 1];
            }
          }
        }
      }
    }
  }

  /** The scan of `/q/g` replaced by the closing quote. */
  function ClosePass(t: string, k: Kind): (r: string)
    ensures |r| == |t|
    ensures forall i :: 0 <= i < |t| ==> r[i] == if t[i] == k.Straight() then k.Closing() else t[i]
  {
    if t == [] then []
    else [if t[0] == k.Straight() then k.Closing() else t[0]] + ClosePass(t[1..], k)
  }

  /** The four quote passes. */
  function SmartQuotes(s: string): (r: string)
    ensures |r| == |s|
  {
    var singles := ClosePass(OpenPass(s, true, Single), Single);
    ClosePass(OpenPass(singles, true, Double), Double)
  }

  /** A single quote at `i` opens: it starts the text or follows `-`, an em
      dash, white space, `(`, `[` or `"`. */
  predicate SingleOpens(s: string, i: int)
    requires 0 <= i < |s|
  {
    i == 0 || Single.Opener(s[i - 1])
  }

  /** A double quote at `i` opens: it starts the text, or follows `-`, an em
      dash, `/`, `[`, `(`, a curly opening single quote or white space, where
      a straight single quote that opens counts as the curly one it becomes. */
  predicate DoubleOpens(s: string, i: int)
    requires 0 <= i < |s|
  {
    i == 0 || Double.Opener(s[i - 1]) || (s[i - 1] == '\'' && SingleOpens(s, i - 1))
  }

  /** What the quote passes make of the character at `i`. */
  function QuotedAt(s: string, i: int): char
    requires 0 <= i < |s|
  {
    if s[i] == '\'' then (if SingleOpens(s, i) then '\U{2018}' else '\U{2019}')
    else if s[i] == '"' then (if DoubleOpens(s, i) then '\U{201C}' else '\U{201D}')
    else s[i]
  }

  /** The quote passes character by character: each straight quote becomes
      the opening or closing curly quote its left neighbour calls for, and
      every other character stays. */
  lemma SmartQuotesPointwise(s: string)
    ensures forall i :: 0 <= i < |s| ==> SmartQuotes(s)[i] == QuotedAt(s, i)
  {
    var p1 := OpenPass(s, true, Single);
    var p2 := ClosePass(p1, Single);
    var p3 := OpenPass(p2, true, Double);
    OpenPassPointwise(s, true, Single);
    OpenPassPointwise(p2, true, Double);
    forall i | 0 <= i < |s|
      ensures SmartQuotes(s)[i] == QuotedAt(s, i)
    {
      if i > 0 {
        assert p2[i - 1] == '\U{2018}' <==> s[i - 1] == '\U{2018}' || (s[i - 1] == '\'' && SingleOpens(s, i - 1));
      }
    }
  }

  /** The scan of `/--/g` replaced by an em dash. */
  function DashPass(t: string): (r: string)
    ensures |t| > 0 ==> |r| > 0 && (r[0] == '-' <==> t[0] == '-' && (|t| == 1 || t[1] != '-'))
    ensures NoDoubleDash(r)
  {
    if |t| >= 2 && t[0] == '-' && t[1] == '-' then [EmDash] + DashPass(t[2..])
    else if t == [] then []
    else [t[0]] + DashPass(t[1..])
  }

  /** The number of replacements the dash pass makes. */
  function DashPairs(t: string): nat {
    if |t| >= 2 && t[0] == '-' && t[1] == '-' then 1 + DashPairs(t[2..])
    else if t == [] then 0
    else DashPairs(t[1..])
  }

  /** No two hyphens in a row. */
  predicate NoDoubleDash(t: string) {
    forall i :: 0 < i < |t| ==> !(t[i - 1] == '-' && t[i] == '-')
  }

  /** Each replacement turns two characters into one. */
  lemma {:induction false} DashPassLength(t: string)
    ensures |DashPass(t)| == |t| - DashPairs(t)
  {
    if |t| >= 2 && t[0] == '-' && t[1] == '-' {
      DashPassLength(t[2..]);
    } else if t != [] {
      DashPassLength(t[1..]);
    }
  }

  /** The dash pass keeps every character other than the hyphens it joins. */
  lemma {:induction false} DashPassChars(t: string)
    ensures forall c :: c in DashPass(t) ==> c in t || c == EmDash
  {
    if |t| >= 2 && t[0] == '-' && t[1] == '-' {
      DashPassChars(t[2..]);
    } else if t != [] {
      DashPassChars(t[1..]);
    }
  }

  /** Writing every em dash as `--` again. */
  function Expand(t: string): (r: string)
    ensures EmDash !in r
  {
    if t == [] then [] else (if t[0] == EmDash then "--" else [t[0]]) + Expand(t[1..])
  }

  /** On text without em dashes the dash pass is undone by Expand. */
  lemma {:induction false} DashPassRoundTrip(t: string)
    requires EmDash !in t
    ensures Expand(DashPass(t)) == t
  {
    if |t| >= 2 && t[0] == '-' && t[1] == '-' {
      DashPassRoundTrip(t[2..]);
      assert DashPass(t) == [EmDash] + DashPass(t[2..]);
      ExpandAppend([EmDash], DashPass(t[2..]));
      assert t == "--" + t[2..];
    } else if t != [] {
      DashPassRoundTrip(t[1..]);
      assert DashPass(t) == [t[0]] + DashPass(t[1..]);
      ExpandAppend([t[0]], DashPass(t[1..]));
      assert t == [t[0]] + t[1..];
    }
  }

  /** Expand works character by character. */
  lemma {:induction false} ExpandAppend(a: string, b: string)
    ensures Expand(a + b) == Expand(a) + Expand(b)
  {
    if a == [] {
      assert a + b == b;
    } else {
      var head := if a[0] == EmDash then "--" else [a[0]];
      assert (a + b)[0] == a[0] && (a + b)[1..] == a[1..] + b;
      ExpandAppend(a[1..], b);
      assert Expand(a + b) == head + (Expand(a[1..]) + Expand(b));
      assert head + (Expand(a[1..]) + Expand(b)) == (head + Expand(a[1..])) + Expand(b);
    }
  }

  /** Without `--` the dash pass changes nothing. */
  lemma {:induction false} DashPassIdentity(t: string)
    requires NoDoubleDash(t)
    ensures DashPass(t) == t
  {
    if t != [] {
      assert NoDoubleDash(t[1..]) by {
        forall i | 0 < i < |t[1..]|
          ensures !(t[1..][i - 1] == '-' && t[1..][i] == '-')
        {
          assert t[1..][i - 1] == t[i] && t[1..][i] == t[i + 1];
        }
      }
      DashPassIdentity(t[1..]);
      assert t == [t[0]] + t[1..];
    }
  }

  /** Only the hyphens decide the dash pass's count. */
  lemma {:induction false} DashPairsByHyphens(a: string, b: string)
    requires |a| == |b| && forall i :: 0 <= i < |a| ==> (a[i] == '-' <==> b[i] == '-')
    ensures DashPairs(a) == DashPairs(b)
  {
    if |a| >= 2 && a[0] == '-' && a[1] == '-' {
      DashPairsByHyphens(a[2..], b[2..]);
    } else if a != [] {
      DashPairsByHyphens(a[1..], b[1..]);
    }
  }

  /** `smarten(a)`. */
  function Smarten(s: string): (r: string)
    ensures NoDoubleDash(r)
  {
    DashPass(SmartQuotes(s))
  }

  /** No straight quote survives. */
  lemma SmartenNoStraightQuotes(s: string)
    ensures '\'' !in Smarten(s) && '"' !in Smarten(s)
  {
    SmartQuotesPointwise(s);
    var q := SmartQuotes(s);
    assert '\'' !in q && '"' !in q by {
      forall i | 0 <= i < |q|
        ensures q[i] != '\'' && q[i] != '"'
      {
        assert q[i] == QuotedAt(s, i);
      }
    }
    DashPassChars(q);
    assert Smarten(s) == DashPass(q);
  }

  /** Quotes are replaced one for one and each `--` becomes one em dash, so
      the text shrinks by the number of `--` pairs of the input. */
  lemma SmartenLength(s: string)
    ensures |Smarten(s)| == |s| - DashPairs(s)
  {
    SmartQuotesPointwise(s);
    var q := SmartQuotes(s);
    forall i | 0 <= i < |s|
      ensures q[i] == '-' <==> s[i] == '-'
    {
      assert q[i] == QuotedAt(s, i);
    }
    DashPairsByHyphens(q, s);
    DashPassLength(q);
  }

  /** Text without straight quotes and `--` comes back unchanged. */
  lemma SmartenIdentity(s: string)
    requires '\'' !in s && '"' !in s && NoDoubleDash(s)
    ensures Smarten(s) == s
  {
    SmartQuotesPointwise(s);
    var q := SmartQuotes(s);
    forall i | 0 <= i < |s|
      ensures q[i] == s[i]
    {
      assert q[i] == QuotedAt(s, i);
    }
    assert q == s;
    DashPassIdentity(s);
  }

  /** Smartening twice is smartening once. */
  lemma SmartenIdempotent(s: string)
    ensures Smarten(Smarten(s)) == Smarten(s)
  {
    SmartenNoStraightQuotes(s);
    SmartenIdentity(Smarten(s));
  }

  /** In ` ''` only the first quote opens: the second follows a quote, not an opener. */
  lemma SpaceThenTwoQuotes()
    ensures Smarten(" ''") == " \U{2018}\U{2019}"
  {
    SmartQuotesPointwise(" ''");
    var q := SmartQuotes(" ''");
    assert q[0] == ' ' && q[1] == '\U{2018}' && q[2] == '\U{2019}';
    assert q == " \U{2018}\U{2019}";
    DashPassIdentity(q);
  }
}

=== FILE: sunset_gifs.dfy ===
/** `SunsetGIFs` of images_cloudinary.py: the result of one image search,
    kept with the instant it was fetched and fetched again when it is empty or
    older than the refresh period; the first image of the result; and its
    delivery URL rewritten to ask for an automatic, lossy, quality-60 format.
    The search service and the clock are parameters. */
module SunsetGifs {
  import opened Base

  /** An image record of the search result; only `secure_url` is read.
      The empty dictionary `{}` is `Image(None)`. */
  datatype Image = Image(secureUrl: Option<string>)

  /** A search result: its `resources` key, if present, and how many other
      keys it holds. */
  datatype SearchData = SearchData(resources: Option<seq<Image>>, otherKeys: nat)

  /** The empty dictionary `{}`. */
  const EmptyData: SearchData := SearchData(None, 0)

  /** A dictionary is truthy when it has a key. */
  predicate Truthy(d: SearchData) {
    d.resources.Some? || d.otherKeys > 0
  }

  /** The `resources` value is a non-empty list. */
  predicate HasResources(d: SearchData) {
    d.resources.Some? && |d.resources.value| > 0
  }

  const DefaultRefreshPeriod: real := 3600.0
  const DefaultFolder: string := "sunset_gifs"

  datatype Gifs = Gifs(period: real, data: SearchData, lastAccessed: real, folder: string)

  /** `SunsetGIFs(search_refresh_time_period, folder)`: no data, last fetched at 0. */
  function New(period: real, folder: string): (g: Gifs)
    ensures g.data == EmptyData && g.lastAccessed == 0.0
    ensures g.period == period && g.folder == folder
  {
    Gifs(period, EmptyData, 0.0, folder)
  }

  /** The refresh rule: the data is empty, or strictly older than the period. */
  predicate NeedsRefresh(g: Gifs, now: real) {
    !Truthy(g.data) || now - g.lastAccessed > g.period
  }

  /** `raw_search_data` at `now`; `reply` is what the search would return
      (`None` for Python's `None`), consulted only on a refresh, where a
      falsy reply is stored as `{}`. */
  function RawSearchData(g: Gifs, now: real, reply: Option<SearchData>): (r: (Gifs, SearchData))
    ensures r.0.period == g.period && r.0.folder == g.folder && r.1 == r.0.data
    ensures !NeedsRefresh(g, now) ==> r == (g, g.data)
    ensures NeedsRefresh(g, now) ==> r.0.lastAccessed == now
    ensures NeedsRefresh(g, now) && reply.Some? && Truthy(reply.value) ==> r.1 == reply.value
    ensures NeedsRefresh(g, now) && !(reply.Some? && Truthy(reply.value)) ==> r.1 == EmptyData
  {
    if NeedsRefresh(g, now) then
      var data := if reply.Some? && Truthy(reply.value) then reply.value else EmptyData;
      (g.(data := data, lastAccessed := now), data)
    else (g, g.data)
  }

  /** Within the period, non-empty data is served as it is, whatever the search would say. */
  lemma WithinPeriodNoSearch(g: Gifs, now: real, a: Option<SearchData>, b: Option<SearchData>)
    requires Truthy(g.data) && now - g.lastAccessed <= g.period
    ensures RawSearchData(g, now, a) == RawSearchData(g, now, b) == (g, g.data)
  {
  }

  /** The rule is strict: exactly one period after the last fetch there is no new search. */
  lemma NoRefreshAtExactPeriod(g: Gifs, reply: Option<SearchData>)
    requires Truthy(g.data)
    ensures RawSearchData(g, g.lastAccessed + g.period, reply) == (g, g.data)
  {
  }

  /** An empty reply is stored as `{}`, which forces a search on every later access. */
  lemma EmptyReplySearchesAgain(g: Gifs, now: real, reply: Option<SearchData>, later: real)
    requires NeedsRefresh(g, now) && !(reply.Some? && Truthy(reply.value))
    ensures NeedsRefresh(RawSearchData(g, now, reply).0, later)
  {
  }

  /** Fresh non-empty data is served until a full period has passed. */
  lemma FreshDataServed(g: Gifs, now: real, reply: Option<SearchData>, later: real, reply': Option<SearchData>)
    requires NeedsRefresh(g, now) && reply.Some? && Truthy(reply.value)
    requires later - now <= g.period
    ensures var (g1, d1) := RawSearchData(g, now, reply);
            RawSearchData(g1, later, reply') == (g1, d1)
  {
  }

  /** Reading the data a second time at the same instant changes nothing. */
  lemma SecondReadAgrees(g: Gifs, now: real, reply: Option<SearchData>)
    ensures var (g1, d1) := RawSearchData(g, now, reply);
            RawSearchData(g1, now, reply) == (g1, d1)
  {
  }

  /** `most_recent_image` at `now`: the first resource of the data, or `{}`
      when `resources` is missing or empty. The property reads the data
      twice; both reads happen at `now`. */
  function MostRecentImage(g: Gifs, now: real, reply: Option<SearchData>): (r: (Gifs, Image))
    ensures var (g1, d1) := RawSearchData(g, now, reply);
            r.0 == g1 && (r.1 == if HasResources(d1) then d1.resources.value[0] else Image(None))
  {
    var (g1, d1) := RawSearchData(g, now, reply);
    if HasResources(d1) then
      SecondReadAgrees(g, now, reply);
      var (g2, d2) := RawSearchData(g1, now, reply);
      (g2, d2.resources.value[0])
    else (g1, Image(None))
  }

  const Lookbehind: string := "upload/"
  const Lookahead: string := "/sunset_gifs"
  const Transformation: string := "f_auto,fl_lossy/q_60"

  /** The first occurrence of `p` in `s` at or after `from`. */
  function FindFrom(s: string, p: string, from: nat): (r: Option<nat>)
    ensures r.Some? ==> from <= r.value && OccursAt(s, p, r.value)
    ensures r.Some? ==> forall j :: from <= j < r.value ==> !OccursAt(s, p, j)
    ensures r.None? ==> forall j :: from <= j ==> !OccursAt(s, p, j)
    decreases |s| - from
  {
    if from + |p| > |s| then None
    else if s[from..from + |p|] == p then Some(from)
    else FindFrom(s, p, from + 1)
  }

  /** No line break in `s[m..q]` (`.` does not match one). */
  predicate NoNewline(s: string, m: int, q: int)
    requires 0 <= m <= q <= |s|
  {
    forall k :: m <= k < q ==> s[k] != '\n'
  }

  /** The end of the lazy `.*?` from `m`: the first `/sunset_gifs` at or after
      `minEnd`, provided no line break comes before it. */
  function LazyEnd(s: string, m: nat, minEnd: nat): (r: Option<nat>)
    requires m <= minEnd
    ensures r.Some? ==> minEnd <= r.value && r.value + |Lookahead| <= |s| && OccursAt(s, Lookahead, r.value)
    ensures r.Some? ==> NoNewline(s, m, r.value)
  {
    match FindFrom(s, Lookahead, minEnd)
    case None => None
    case Some(q) => if NoNewline(s, m, q) then Some(q) else None
  }

  /** A match of `(?<=upload/).*?(?=/sunset_gifs)` starting at `m`, if any,
      given as its end. The match must not end where the scan resumed when
      the previous match was empty. */
  function MatchAt(s: string, m: nat, mustAdvance: bool): (r: Option<nat>)
    ensures r.Some? ==> m <= r.value <= |s| && (mustAdvance ==> m < r.value)
  {
    if m >= |Lookbehind| && OccursAt(s, Lookbehind, m - |Lookbehind|) then
      LazyEnd(s, m, if mustAdvance then m + 1 else m)
    else None
  }

  /** The search of `re.sub` from `p`: the first start `m >= p` (from `at` on)
      with a match, and its end. Only a match at `p` itself is bound by `mustAdvance`. */
  function NextMatch(s: string, p: nat, at: nat, mustAdvance: bool): (r: Option<(nat, nat)>)
    requires p <= at
    ensures r.Some? ==> at <= r.value.0 <= r.value.1 <= |s|
    ensures r.Some? && mustAdvance && r.value.0 == p ==> r.value.0 < r.value.1
    decreases |s| + 1 - at
  {
    if at > |s| then None
    else
      match MatchAt(s, at, mustAdvance && at == p)
      case Some(q) => Some((at, q))
      case None => NextMatch(s, p, at + 1, mustAdvance)
  }

  /** `re.sub` from position `p`: text up to each match is copied, each match
      is replaced, and the scan resumes at the match's end; after an empty
      match, the next match may not be empty at the same place. */
  function Sub(s: string, p: nat, mustAdvance: bool): (r: string)
    requires p <= |s|
    decreases |s| - p, if mustAdvance then 0 else 1
  {
    match NextMatch(s, p, p, mustAdvance)
    case None => s[p..]
    case Some((m, q)) => s[p..m] + Transformation + Sub(s, q, q == m)
  }

  /** The rewrite of `most_recent_url`. */
  function Rewrite(url: string): string {
    Sub(url, 0, false)
  }

  /** `most_recent_url` at `now`: the rewritten `secure_url` of the most
      recent image, the empty string standing in for a missing one. */
  function MostRecentUrl(g: Gifs, now: real, reply: Option<SearchData>): (r: (Gifs, string))
    ensures r.0 == MostRecentImage(g, now, reply).0
  {
    var (g1, image) := MostRecentImage(g, now, reply);
    (g1, Rewrite(image.secureUrl.GetOr("")))
  }

  /** Without a `secure_url` the URL is empty. */
  lemma MissingUrlIsEmpty(g: Gifs, now: real, reply: Option<SearchData>)
    requires MostRecentImage(g, now, reply).1.secureUrl.None?
    ensures MostRecentUrl(g, now, reply).1 == ""
  {
    NoLookaheadUnchanged("");
  }

  /** A URL is rewritten to the first resource's rewritten `secure_url`. */
  lemma UrlOfFirstResource(g: Gifs, now: real, reply: Option<SearchData>)
    requires var d := RawSearchData(g, now, reply).1;
             HasResources(d) && d.resources.value[0].secureUrl.Some?
    ensures MostRecentUrl(g, now, reply).1 ==
            Rewrite(RawSearchData(g, now, reply).1.resources.value[0].secureUrl.value)
  {
  }

  /** Without `/sunset_gifs` nothing matches from any point on. */
  lemma {:induction false} NoLookaheadNoMatch(s: string, p: nat, at: nat, mustAdvance: bool)
    requires p <= at
    requires forall j :: !OccursAt(s, Lookahead, j)
    ensures NextMatch(s, p, at, mustAdvance).None?
    decreases |s| + 1 - at
  {
    if at <= |s| {
      NoLookaheadNoMatch(s, p, at + 1, mustAdvance);
    }
  }

  /** Without `upload/` nothing matches from any point on. */
  lemma {:induction false} NoLookbehindNoMatch(s: string, p: nat, at: nat, mustAdvance: bool)
    requires p <= at
    requires forall j :: !OccursAt(s, Lookbehind, j)
    ensures NextMatch(s, p, at, mustAdvance).None?
    decreases |s| + 1 - at
  {
    if at <= |s| {
      NoLookbehindNoMatch(s, p, at + 1, mustAdvance);
    }
  }

  /** A URL lacking `/sunset_gifs` is left as it is. */
  lemma NoLookaheadUnchanged(s: string)
    requires forall j :: !OccursAt(s, Lookahead, j)
    ensures Rewrite(s) == s
  {
    NoLookaheadNoMatch(s, 0, 0, false);
  }

  /** A URL lacking `upload/` is left as it is. */
  lemma NoLookbehindUnchanged(s: string)
    requires forall j :: !OccursAt(s, Lookbehind, j)
    ensures Rewrite(s) == s
  {
    NoLookbehindNoMatch(s, 0, 0, false);
  }

  /** In a URL with one `upload/` and one `/sunset_gifs` after it, on one
      line, exactly the text between the two is replaced. */
  lemma RewriteBetweenMarkers(pre: string, mid: string, post: string)
    requires var s := pre + Lookbehind + mid + Lookahead + post;
             && (forall j :: j != |pre| ==> !OccursAt(s, Lookbehind, j))
             && (forall j :: j != |pre| + |Lookbehind| + |mid| ==> !OccursAt(s, Lookahead, j))
             && (forall k :: 0 <= k < |mid| ==> mid[k] != '\n')
    ensures Rewrite(pre + Lookbehind + mid + Lookahead + post) ==
            pre + Lookbehind + Transformation + Lookahead + post
  {
    var s := pre + Lookbehind + mid + Lookahead + post;
    var m := |pre| + |Lookbehind|;
    var q := m + |mid|;
    assert NextMatch(s, 0, 0, false) == Some((m, q)) by {
      assert s[|pre|..m] == Lookbehind;
      assert s[q..q + |Lookahead|] == Lookahead;
      assert OccursAt(s, Lookahead, q);
      assert NoNewline(s, m, q) by {
        forall k | m <= k < q
          ensures s[k] != '\n'
        {
          assert s[k] == mid[k - m];
        }
      }
      NoEarlierMatch(s, 0, m);
      FindFromIs(s, Lookahead, m, q);
      assert MatchAt(s, m, false) == Some(q);
    }
    assert NextMatch(s, q, q, q == m).None? by {
      if q == m {
        NoLaterMatch(s, q, q);
      } else {
        NoLookbehindAfter(s, q, q, false);
      }
    }
    RewriteOneMatch(s, m, q);
    assert s[..m] == pre + Lookbehind && s[q..] == Lookahead + post;
  }

  /** A text with one match from `m` to `q` and none after it has exactly that span replaced. */
  lemma RewriteOneMatch(s: string, m: nat, q: nat)
    requires NextMatch(s, 0, 0, false) == Some((m, q))
    requires q <= |s| && NextMatch(s, q, q, q == m).None?
    ensures Rewrite(s) == s[..m] + Transformation + s[q..]
  {
    assert Sub(s, q, q == m) == s[q..];
    assert s[0..m] == s[..m];
  }

  /** The first occurrence at or after `from` is the one with none between. */
  lemma FindFromIs(s: string, p: string, from: nat, q: nat)
    requires from <= q && OccursAt(s, p, q)
    requires forall j :: from <= j < q ==> !OccursAt(s, p, j)
    ensures FindFrom(s, p, from) == Some(q)
    decreases q - from
  {
    if from < q {
      FindFromIs(s, p, from + 1, q);
    }
  }

  /** Before the end of the only `upload/`, no start has the lookbehind. */
  lemma {:induction false} NoEarlierMatch(s: string, at: nat, m: nat)
    requires at <= m <= |s| && m >= |Lookbehind|
    requires forall j :: j != m - |Lookbehind| ==> !OccursAt(s, Lookbehind, j)
    ensures NextMatch(s, 0, at, false) == NextMatch(s, 0, m, false)
    decreases m - at
  {
    if at < m {
      assert MatchAt(s, at, false).None?;
      NoEarlierMatch(s, at + 1, m);
    }
  }

  /** After the only `/sunset_gifs` there is no match when the scan resumes
      on it after an empty match: the match would have to end where it started. */
  lemma {:induction false} NoLaterMatch(s: string, p: nat, at: nat)
    requires p <= at && p <= |s|
    requires forall j :: j > p ==> !OccursAt(s, Lookahead, j)
    ensures NextMatch(s, p, at, true).None?
    decreases |s| + 1 - at
  {
    if at <= |s| {
      if at >= |Lookbehind| && OccursAt(s, Lookbehind, at - |Lookbehind|) {
        var minEnd := if at == p then at + 1 else at;
        assert FindFrom(s, Lookahead, minEnd).None?;
      }
      NoLaterMatch(s, p, at + 1);
    }
  }

  /** No match starts where no `upload/` ends at or after `at`. */
  lemma {:induction false} NoLookbehindAfter(s: string, p: nat, at: nat, mustAdvance: bool)
    requires p <= at
    requires forall j :: j + |Lookbehind| >= at ==> !OccursAt(s, Lookbehind, j)
    ensures NextMatch(s, p, at, mustAdvance).None?
    decreases |s| + 1 - at
  {
    if at <= |s| {
      NoLookbehindAfter(s, p, at + 1, mustAdvance);
    }
  }
}

=== FILE: text_nodes.dfy ===
/** `getTextNodesIn` of static/base_scripts.js: the text nodes under a DOM
    node, found by walking each node's children from the last to the first and
    descending into elements, documents and document fragments. */
module TextNodes {
  import opened Base

  /** A DOM node: an identity, its `nodeType` and its child nodes in document order. */
  datatype Node = Node(id: int, nodeType: int, children: seq<Node>)

  const TextNode: int := 3
  const ElementNode: int := 1
  const DocumentNode: int := 9
  const FragmentNode: int := 11

  /** The node types whose children the walk visits. */
  predicate Descends(n: Node) {
    n.nodeType == ElementNode || n.nodeType == DocumentNode || n.nodeType == FragmentNode
  }

  /** The optional filter, called with a text node and its parent; no filter keeps everything. */
  predicate Keeps(filter: Option<(Node, Node) -> bool>, node: Node, parent: Node) {
    filter.None? || filter.value(node, parent)
  }

  /** `getTextNodesIn(elem, opt_fnFilter)`: nothing for a missing element. */
  function GetTextNodesIn(elem: Option<Node>, filter: Option<(Node, Node) -> bool>): (r: seq<Node>)
    ensures elem.None? ==> r == []
    ensures forall i :: 0 <= i < |r| ==> r[i].nodeType == TextNode
  {
    match elem
    case None => []
    case Some(n) => Collect(n, filter)
  }

  /** The walk below `n`. */
  function Collect(n: Node, filter: Option<(Node, Node) -> bool>): (r: seq<Node>)
    ensures forall i :: 0 <= i < |r| ==> r[i].nodeType == TextNode
    decreases n, 1
  {
    CollectChildren(n, |n.children|, filter)
  }

  /** The loop of the walk over the first `k` children of `n`, from child
      `k - 1` down to child 0: a kept text node is pushed, a descending node
      contributes its own walk, anything else is skipped. */
  function CollectChildren(n: Node, k: nat, filter: Option<(Node, Node) -> bool>): (r: seq<Node>)
    requires k <= |n.children|
    ensures forall i :: 0 <= i < |r| ==> r[i].nodeType == TextNode
    decreases n, 0, k
  {
    if k == 0 then []
    else
      var child := n.children[k - 1];
      var here :=
        if child.nodeType == TextNode then (if Keeps(filter, child, n) then [child] else [])
        else if Descends(child) then Collect(child, filter)
        else [];
      here + CollectChildren(n, k - 1, filter)
  }

  /** The kept text nodes below `n` in document order: the reference the walk is compared with. */
  function DocumentOrder(n: Node, filter: Option<(Node, Node) -> bool>): seq<Node>
    decreases n, 1
  {
    DocumentOrderChildren(n, |n.children|, filter)
  }

  /** Document order over the first `k` children of `n`. */
  function DocumentOrderChildren(n: Node, k: nat, filter: Option<(Node, Node) -> bool>): seq<Node>
    requires k <= |n.children|
    decreases n, 0, k
  {
    if k == 0 then []
    else
      var child := n.children[k - 1];
      DocumentOrderChildren(n, k - 1, filter) +
        (if child.nodeType == TextNode then (if Keeps(filter, child, n) then [child] else [])
         else if Descends(child) then DocumentOrder(child, filter)
         else [])
  }

  /** Visiting children last to first yields the text nodes in reverse document order. */
  lemma {:induction false} CollectIsReverseDocumentOrder(n: Node, filter: Option<(Node, Node) -> bool>)
    ensures Collect(n, filter) == Reverse(DocumentOrder(n, filter))
    decreases n, 1
  {
    ChildrenReverse(n, |n.children|, filter);
  }

  lemma {:induction false} ChildrenReverse(n: Node, k: nat, filter: Option<(Node, Node) -> bool>)
    requires k <= |n.children|
    ensures CollectChildren(n, k, filter) == Reverse(DocumentOrderChildren(n, k, filter))
    decreases n, 0, k
  {
    if k > 0 {
      var child := n.children[k - 1];
      ChildrenReverse(n, k - 1, filter);
      var doc :=
        if child.nodeType == TextNode then (if Keeps(filter, child, n) then [child] else [])
        else if Descends(child) then DocumentOrder(child, filter)
        else [];
      if child.nodeType != TextNode && Descends(child) {
        CollectIsReverseDocumentOrder(child, filter);
      }
      assert Reverse(doc) == (
        if child.nodeType == TextNode then (if Keeps(filter, child, n) then [child] else [])
        else if Descends(child) then Collect(child, filter)
        else []);
      ReverseAppend(DocumentOrderChildren(n, k - 1, filter), doc);
    }
  }

  /** A filter that accepts every text node gives what no filter gives. */
  lemma {:induction false} AcceptingFilterIsNoFilter(n: Node, f: (Node, Node) -> bool)
    requires forall a, b :: f(a, b)
    ensures Collect(n, Some(f)) == Collect(n, None)
    decreases n, 1
  {
    AcceptingFilterChildren(n, |n.children|, f);
  }

  lemma {:induction false} AcceptingFilterChildren(n: Node, k: nat, f: (Node, Node) -> bool)
    requires k <= |n.children|
    requires forall a, b :: f(a, b)
    ensures CollectChildren(n, k, Some(f)) == CollectChildren(n, k, None)
    decreases n, 0, k
  {
    if k > 0 {
      var child := n.children[k - 1];
      AcceptingFilterChildren(n, k - 1, f);
      if child.nodeType != TextNode && Descends(child) {
        AcceptingFilterIsNoFilter(child, f);
      }
    }
  }

  /** A text node directly under `n` that the filter keeps is in the result. */
  lemma ChildTextKept(n: Node, j: nat, filter: Option<(Node, Node) -> bool>)
    requires j < |n.children| && n.children[j].nodeType == TextNode
    ensures Keeps(filter, n.children[j], n) ==> n.children[j] in Collect(n, filter)
  {
    ChildTextKeptUpTo(n, |n.children|, j, filter);
  }

  lemma {:induction false} ChildTextKeptUpTo(n: Node, k: nat, j: nat, filter: Option<(Node, Node) -> bool>)
    requires j < k <= |n.children| && n.children[j].nodeType == TextNode
    ensures Keeps(filter, n.children[j], n) ==> n.children[j] in CollectChildren(n, k, filter)
  {
    var child := n.children[k - 1];
    var here :=
      if child.nodeType == TextNode then (if Keeps(filter, child, n) then [child] else [])
      else if Descends(child) then Collect(child, filter)
      else [];
    assert CollectChildren(n, k, filter) == here + CollectChildren(n, k - 1, filter);
    if j < k - 1 {
      ChildTextKeptUpTo(n, k - 1, j, filter);
    }
  }

  /** The children of a node that does not descend are never visited when it
      is itself a child: a comment's subtree contributes nothing. */
  lemma SkippedSubtree(n: Node, filter: Option<(Node, Node) -> bool>)
    requires |n.children| == 1 && n.children[0].nodeType != TextNode && !Descends(n.children[0])
    ensures Collect(n, filter) == []
  {
    assert Collect(n, filter) == CollectChildren(n, 1, filter);
    assert CollectChildren(n, 1, filter) == [] + CollectChildren(n, 0, filter);
  }
}

=== FILE: ttl_cache.dfy ===
/** The cache the art accessor keeps search results in (cachetools' TTLCache):
    every key carries an expiry instant set when it is written, a key whose
    expiry is not after the current instant reads as absent, and a write of a
    new key into a full cache first drops expired keys and then the least
    recently used one. */
module TtlCache {
  import opened Base
  import OrderedMap
  type OMap<K, V> = OrderedMap.OMap<K, V>

  /** A stored value and the instant from which it reads as absent. */
  datatype Entry<V> = Entry(value: V, expires: real)

  /** `entries` orders the keys least recently used first. */
  datatype Cache<K, V> = Cache(capacity: nat, ttl: real, entries: OMap<K, Entry<V>>)

  ghost predicate Valid<K(!new), V>(c: Cache<K, V>) {
    && c.capacity >= 1
    && c.ttl > 0.0
    && OrderedMap.Valid(c.entries)
    && |c.entries.order| <= c.capacity
  }

  /** A cache holding nothing. */
  function Empty<K(!new), V>(capacity: nat, ttl: real): (c: Cache<K, V>)
    requires capacity >= 1 && ttl > 0.0
    ensures Valid(c) && c.entries.data == map[] && c.capacity == capacity && c.ttl == ttl
  {
    Cache(capacity, ttl, OrderedMap.Empty())
  }

  /** `k` is stored and has not yet expired at `now`. */
  predicate Live<K, V>(c: Cache<K, V>, now: real, k: K) {
    k in c.entries.data && now < c.entries.data[k].expires
  }

  /** The membership test `k in cache`: the value if live, without touching the use order. */
  function Lookup<K, V>(c: Cache<K, V>, now: real, k: K): (r: Option<V>)
    ensures r.Some? <==> Live(c, now, k)
    ensures r.Some? ==> r.value == c.entries.data[k].value
  {
    if Live(c, now, k) then Some(c.entries.data[k].value) else None
  }

  /** The read `cache[k]`: a live key becomes the most recently used; an
      expired or missing key leaves the cache as it was and yields nothing
      (the library raises `KeyError`). */
  function Get<K(!new), V>(c: Cache<K, V>, now: real, k: K): (r: (Cache<K, V>, Option<V>))
    requires Valid(c)
    ensures Valid(r.0) && r.0.capacity == c.capacity && r.0.ttl == c.ttl
    ensures r.0.entries.data == c.entries.data
    ensures r.1 == Lookup(c, now, k)
    ensures r.1.Some? ==> r.0.entries.order[|r.0.entries.order| - 1] == k
    ensures r.1.None? ==> r.0 == c
  {
    if Live(c, now, k) then
      var e := c.entries.data[k];
      assert c.entries.data[k := e] == c.entries.data;
      (c.(entries := OrderedMap.Touch(c.entries, k, e)), Some(e.value))
    else
      (c, None)
  }

  /** Drops every key whose expiry is not after `now`. */
  function Expire<K(!new), V>(c: Cache<K, V>, now: real): (r: Cache<K, V>)
    requires Valid(c)
    ensures Valid(r) && r.capacity == c.capacity && r.ttl == c.ttl
    ensures forall k :: k in r.entries.data <==> Live(c, now, k)
    ensures forall k :: k in r.entries.data ==> k in c.entries.data && r.entries.data[k] == c.entries.data[k]
  {
    var keep := (k: K) => Live(c, now, k);
    Cache(c.capacity, c.ttl, OrderedMap.Restrict(c.entries, keep))
  }

  /** The key a write of `k` at `now` pushes out, if any: after expired keys are
      dropped, the least recently used key of a full cache that lacks `k`. */
  function Victim<K(!new), V>(c: Cache<K, V>, now: real, k: K): (r: Option<K>)
    requires Valid(c)
    ensures r.Some? ==> Live(c, now, r.value) && r.value != k
    ensures r.None? <==> Live(c, now, k) || |Expire(c, now).entries.order| < c.capacity
    ensures r.Some? ==> exists i :: 0 <= i < |c.entries.order| && c.entries.order[i] == r.value &&
                          forall j :: 0 <= j < i ==> !Live(c, now, c.entries.order[j])
  {
    var e := Expire(c, now);
    if k !in e.entries.data && |e.entries.order| >= e.capacity then
      assert e.entries.order[0] in e.entries.data;
      FilterFirst(c.entries.order, (k': K) => Live(c, now, k'));
      Some(e.entries.order[0])
    else None
  }

  /** The write `cache[k] = v` at `now`: `k` reads as `v` until `now + ttl`
      and becomes the most recently used; every other key keeps its value,
      expired keys and the victim are dropped, and nothing else is. */
  function Put<K(!new), V>(c: Cache<K, V>, now: real, k: K, v: V): (r: Cache<K, V>)
    requires Valid(c)
    ensures Valid(r) && r.capacity == c.capacity && r.ttl == c.ttl
    ensures k in r.entries.data && r.entries.data[k] == Entry(v, now + c.ttl)
    ensures r.entries.order[|r.entries.order| - 1] == k
    ensures forall k' :: k' in r.entries.data && k' != k ==>
              Live(c, now, k') && r.entries.data[k'] == c.entries.data[k']
    ensures forall k' :: k' != k && Live(c, now, k') && Victim(c, now, k) != Some(k') ==>
              k' in r.entries.data
  {
    var e := Expire(c, now);
    var room := if k !in e.entries.data && |e.entries.order| >= e.capacity
      then OrderedMap.DropOldest(e.entries)
      else e.entries;
    Cache(c.capacity, c.ttl, OrderedMap.Touch(room, k, Entry(v, now + c.ttl)))
  }

  /** A value written at `t0` reads back at every instant before `t0 + ttl` and
      is absent at every instant from `t0 + ttl` on. */
  lemma ReadsBackUntilTtl<K(!new), V>(c: Cache<K, V>, t0: real, k: K, v: V, t: real)
    requires Valid(c)
    ensures t < t0 + c.ttl ==> Lookup(Put(c, t0, k, v), t, k) == Some(v)
    ensures t >= t0 + c.ttl ==> Lookup(Put(c, t0, k, v), t, k) == None
  {
  }
}
